=== FILE: README.md ===
# Kores bytecode reader: signature parser, emulated frame and class analysis

This project is a Dafny model of three pieces of the Kores bytecode reader, the
library that turns a decoded JVM class into a Kores type declaration.

- **The generic-signature parser** (`GenericUtil`). It is a forward-only
  recursive-descent parser over a `java.text.CharacterIterator`. It reads an
  optional bound block `<name:Bound>`, class types `Lname;` and
  `Lname<args>;`, type variables `Tname;`, and, in `parseFull`, the
  supertype and interfaces that follow the bound block.
- **The emulated frame** (`EmulatedFrame`). It holds the local-variable table,
  a chain of operand-stack scopes and the last visited label. The
  instruction dispatcher drives it.
- **The decisions of class analysis** (`ClassAnalyzer.analyze` and
  `checkSignature`):
  - the interface test on the access flags;
  - the precedence of the parsed signature over the header's supertype and interfaces;
  - the sorting of method results into constructors, methods and the static block;
  - the choice between an interface and a class declaration;
  - the fatal self-check that the signature re-derived from the declaration is the one the class carried.

Modules:

| file | module | contents |
|---|---|---|
| `common.dfy` | `Outcomes` | `Option`, the `Error` taxonomy, `Result` |
| `generics.dfy` | `Generics` | generic types; the cursor (`Cur`, `Next`, the `DONE` sentinel); the serialiser that writes types back as signature text; well-formed types |
| `generic_util.dfy` | `GenericUtil` | the parser, one function per Kotlin function or loop |
| `parser_forms.dfy` | `ParserForms` | closed forms of the sub-parsers and single steps of their loops |
| `signature_round_trip.dfy` | `SignatureRoundTrip` | the round trip of single types, plus the two worked examples |
| `full_signature.dfy` | `FullSignature` | the round trip of whole class signatures, and the fact that only the first bound variable is read |
| `emulated_frame.dfy` | `EmulatedFrame` | the frame as an immutable record with transition functions |
| `class_analyzer.dfy` | `ClassAnalyzer` | the analysis decisions and the signature check |

How the code is represented:

- **The character cursor.** `Cur(s, i)` is the character at `i`, or `DONE` (U+FFFF) past the end. `Next` stops at the end, as `StringCharacterIterator.next` does.
- **Sub-parser outcomes.** A sub-parser returns one of:
  - `Parsed(value, next)`;
  - `Absent(at)`, which is the Kotlin `null`;
  - `Crash`, which is the `NullPointerException` thrown by a `!!` on a `null`.
- **Errors.** Java exceptions become `Error` values of a `Result`:
  - `NullDereference` for an NPE;
  - `RootStackExit` for "Cannot exit root stack";
  - `SignatureMismatch(expected, actual)` for "Signature parsed incorrectly".
- **Integers.** Kotlin `Int` slot numbers are the subset type `Int32`. The slot `startIndex + i` in `storeValues` wraps modulo 2^32, as Kotlin's `+` does.

## Model

| member | source | states |
|---|---|---|
| GenericUtil.ParseTypeOrVar | src/main/kotlin/com/github/jonathanxd/kores/bytecodereader/util/GenericUtil.kt:118-128 | A parsed type consumed at least one character. At most one leading `:` is skipped, and the character after it is `L` for a class and `T` for a variable. At the end of the text there is no value, and the position is after the skipped `:`. |
| GenericUtil.ParseNameType | src/main/kotlin/com/github/jonathanxd/kores/bytecodereader/util/GenericUtil.kt:130-140 | The result is a class exactly when the lookahead is `L`, and a variable exactly when it is `T`. Any other lookahead yields no value and the cursor stays where it was. |
| GenericUtil.ParseJavaClass | src/main/kotlin/com/github/jonathanxd/kores/bytecodereader/util/GenericUtil.kt:142-183 | A parsed class ends right after a consumed `;` or `>`. There is no value when the text ends right after the `L`, and no value only ever at the end of the text. A failing type argument throws (`SignatureRoundTrip.ArgumentAborts`). |
| GenericUtil.ScanClass | src/main/kotlin/com/github/jonathanxd/kores/bytecodereader/util/GenericUtil.kt:151-183 | The name loop yields a class type. It ends right after the terminator it consumed, which is `;` or `>`. It yields no value only at the end of the text. |
| GenericUtil.ParseArgs | src/main/kotlin/com/github/jonathanxd/kores/bytecodereader/util/GenericUtil.kt:155-167 | The argument loop never yields "no value": a missing argument throws. On success the cursor stands on `>`, and the arguments read before are kept, in order, as a prefix of a longer list under the raw name. |
| SignatureRoundTrip.ArgsAbort | src/main/kotlin/com/github/jonathanxd/kores/bytecodereader/util/GenericUtil.kt:160-165 | Well-formed arguments followed by text that holds no type, and that is not the closing `>`, make the argument loop throw, whichever argument fails. |
| SignatureRoundTrip.ArgumentAborts | src/main/kotlin/com/github/jonathanxd/kores/bytecodereader/util/GenericUtil.kt:142-165 | A class type `L name <` whose arguments so far are well-formed, followed by text that holds no type, makes `parseTypeOrVar` throw instead of yielding a class or no value. |
| GenericUtil.ParseBoundBlock | src/main/kotlin/com/github/jonathanxd/kores/bytecodereader/util/GenericUtil.kt:96-116 | The bound block yields at most one entry, and that entry is a bounded type variable. Its only failure is the `!!` on a missing bound. |
| GenericUtil.Parse | src/main/kotlin/com/github/jonathanxd/kores/bytecodereader/util/GenericUtil.kt:80-94 | A null or empty string gives the empty signature. A string not starting with `<` gives exactly the one type `parseTypeOrVar` reads, and fails with an NPE when that is null. |
| GenericUtil.SupertypeLoop | src/main/kotlin/com/github/jonathanxd/kores/bytecodereader/util/GenericUtil.kt:59-75 | Once set, the supertype is kept. Interfaces are only ever appended. Nothing is appended while there is no supertype. The loop stops at once when the text read so far is not a proper prefix of the signature. Its only failure is the NPE of `parse` on a remainder. |
| GenericUtil.ParseFull | src/main/kotlin/com/github/jonathanxd/kores/bytecodereader/util/GenericUtil.kt:41-78 | Null and `""` both give no type parameters, no supertype and no interfaces. There is at most one type parameter, and none unless the signature starts with `<`. Interfaces are found only after a supertype. The only failure is an NPE. |
| GenericUtil.ParseVar | src/main/kotlin/com/github/jonathanxd/kores/bytecodereader/util/GenericUtil.kt:185-203 | A parsed variable consumed at least the `T`, and the result is a type variable. The closed form is `ParserForms.ParseVarForm`. |
| GenericUtil.VarName | src/main/kotlin/com/github/jonathanxd/kores/bytecodereader/util/GenericUtil.kt:189-202 | The name loop of `parseVar` never moves backwards, and what it yields is a type variable. The closed form is `ParserForms.VarNameForm`. |
| ParserForms.VarNameForm | src/main/kotlin/com/github/jonathanxd/kores/bytecodereader/util/GenericUtil.kt:189-202 | The name loop of `parseVar` collects exactly the characters before the first `;`, `>` or end. It consumes a `;` and not a `>`, and it yields no value when the text ends first. |
| ParserForms.ParseVarForm | src/main/kotlin/com/github/jonathanxd/kores/bytecodereader/util/GenericUtil.kt:185-203 | The closed form of `parseVar`: the variable is named by the text between the `T` and the first `;` or `>`. A `;` is consumed, a `>` is not, and the end of the text yields no value. |
| ParserForms.BoundBlockForm | src/main/kotlin/com/github/jonathanxd/kores/bytecodereader/util/GenericUtil.kt:96-116 | The closed form of the bound block. The variable's name is the text before the first `:` with every `<` dropped. The result is empty when no `:` comes before the end. Otherwise it is one variable bounded by the type-or-variable after the `:`. |
| ParserForms.ScanClassName | src/main/kotlin/com/github/jonathanxd/kores/bytecodereader/util/GenericUtil.kt:153-172 | Over a name without `;`, `>`, `<` or end, the class-name loop appends the name to its buffer and moves past it. Nothing else changes. |
| ParserForms.JavaClassWithoutArguments | src/main/kotlin/com/github/jonathanxd/kores/bytecodereader/util/GenericUtil.kt:142-183 | With no `<` before the terminator, the class is named by the text after the `L` up to the first `;`, `>` or end. The terminator is consumed, and the end of the text yields no value. |
| SignatureRoundTrip.VarRoundTrip | src/main/kotlin/com/github/jonathanxd/kores/bytecodereader/util/GenericUtil.kt:185-203 | The text `T` name `;` of a plain name reads back as that variable, with the `;` consumed. |
| SignatureRoundTrip.ClassNamePrefix | src/main/kotlin/com/github/jonathanxd/kores/bytecodereader/util/GenericUtil.kt:142-172 | After the `L` and a plain name, `parseJavaClass` has collected exactly that name and stands on what follows it. |
| SignatureRoundTrip.PlainClassRoundTrip | src/main/kotlin/com/github/jonathanxd/kores/bytecodereader/util/GenericUtil.kt:142-183 | The text of a class without arguments reads back as that class, with the `;` consumed. |
| SignatureRoundTrip.ArgumentListRoundTrip | src/main/kotlin/com/github/jonathanxd/kores/bytecodereader/util/GenericUtil.kt:155-183 | At `<`, the text of well-formed arguments followed by `>;` yields the class with exactly those arguments, in order, and the `;` is consumed. |
| SignatureRoundTrip.ClassRoundTrip | src/main/kotlin/com/github/jonathanxd/kores/bytecodereader/util/GenericUtil.kt:142-183 | The text of a well-formed class type, with or without arguments, reads back as that type, and the cursor ends right after it. |
| SignatureRoundTrip.ParamClassRoundTrip | src/main/kotlin/com/github/jonathanxd/kores/bytecodereader/util/GenericUtil.kt:142-183 | A class type with type arguments reads back as itself: the raw name, then every argument in order, and the cursor ends right after the `;`. |
| SignatureRoundTrip.TypeRoundTrip | src/main/kotlin/com/github/jonathanxd/kores/bytecodereader/util/GenericUtil.kt:118-140 | The text of a well-formed class type or type variable reads back as itself, and the cursor ends right after it. |
| SignatureRoundTrip.ArgsRoundTrip | src/main/kotlin/com/github/jonathanxd/kores/bytecodereader/util/GenericUtil.kt:162-165 | The argument loop reads the text of a non-empty list of well-formed types, ending before `>`, as exactly that list appended in order. It stops on the `>`. |
| SignatureRoundTrip.NestedGenericExample | src/main/kotlin/com/github/jonathanxd/kores/bytecodereader/util/GenericUtil.kt:142-183 | `Ljava/util/List<Ljava/lang/String;>;` is `java/util/List` with the single argument `java/lang/String`, and all 36 characters are consumed. |
| SignatureRoundTrip.VariableExample | src/main/kotlin/com/github/jonathanxd/kores/bytecodereader/util/GenericUtil.kt:118-140 | `TT;` is the variable `T`, and the cursor ends at the end of the text. |
| FullSignature.BoundBlockReadsFirst | src/main/kotlin/com/github/jonathanxd/kores/bytecodereader/util/GenericUtil.kt:80-116 | A text that starts with `<`, a variable name and `:` followed by a well-formed bound parses to exactly that one bounded variable, whatever follows. |
| FullSignature.ParseFirst | src/main/kotlin/com/github/jonathanxd/kores/bytecodereader/util/GenericUtil.kt:80-94 | The text of a sequence of types, starting with a well-formed one, parses to that first type alone. |
| FullSignature.LoopAfterSupertype | src/main/kotlin/com/github/jonathanxd/kores/bytecodereader/util/GenericUtil.kt:59-75 | Once the supertype is set, the loop appends every well-formed type of the remaining text to the interfaces, in order. |
| FullSignature.LoopRoundTrip | src/main/kotlin/com/github/jonathanxd/kores/bytecodereader/util/GenericUtil.kt:59-75 | Over the text of well-formed types, the first type found becomes the supertype if none was set, and every later one is appended to the interfaces in order. |
| FullSignature.NoParameterRoundTrip | src/main/kotlin/com/github/jonathanxd/kores/bytecodereader/util/GenericUtil.kt:41-78 | The text of a well-formed signature without type parameters parses back to that signature. |
| FullSignature.OneParameterRoundTrip | src/main/kotlin/com/github/jonathanxd/kores/bytecodereader/util/GenericUtil.kt:41-78 | The text of a well-formed signature with one bounded type parameter parses back to that signature. |
| FullSignature.FullRoundTrip | src/main/kotlin/com/github/jonathanxd/kores/bytecodereader/util/GenericUtil.kt:41-78 | `parseFull` inverts the serialiser: every well-formed signature parses back from its own text. |
| FullSignature.FirstVariableOnly | src/main/kotlin/com/github/jonathanxd/kores/bytecodereader/util/GenericUtil.kt:47-75 | When the bound block goes on after the first bound with anything but `>`, only the first variable is read. No supertype and no interface is found after it. |
| FullSignature.TwoVariableExample | src/main/kotlin/com/github/jonathanxd/kores/bytecodereader/util/GenericUtil.kt:96-116 | `<K:LA;V:LB;>LC;` parses to the single variable `K` bounded by `A`, with no supertype and no interfaces. |
| FullSignature.LoopReadsType | src/main/kotlin/com/github/jonathanxd/kores/bytecodereader/util/GenericUtil.kt:59-75 | A well-formed type written right after the text read so far is read by one turn of the loop. It becomes the supertype if there is none yet, and is appended to the interfaces otherwise. |
| FullSignature.LoopStopsAtBoundText | src/main/kotlin/com/github/jonathanxd/kores/bytecodereader/util/GenericUtil.kt:59-65 | A remainder that starts with `<` and holds no `:` yields no type (`sign.types.size != 1`). The loop then stops with the supertype and interfaces found so far. |
| FullSignature.LoopAbortsOnNonType | src/main/kotlin/com/github/jonathanxd/kores/bytecodereader/util/GenericUtil.kt:59-65 | A remainder that starts with none of `<`, `:`, `L`, `T` makes `parse` throw, and `parseFull` fails with the NPE. |
| FullSignature.LoopAbortsOnTruncatedClass | src/main/kotlin/com/github/jonathanxd/kores/bytecodereader/util/GenericUtil.kt:59-65 | A remainder that is `L` and a name cut off before its `;` makes `parse` throw instead of ending the list. |
| FullSignature.BoundTextStopsExample | src/main/kotlin/com/github/jonathanxd/kores/bytecodereader/util/GenericUtil.kt:59-75 | `LA;<B` parses to the supertype `A`, with no interfaces and no type parameters. |
| FullSignature.NonTypeAbortsExample | src/main/kotlin/com/github/jonathanxd/kores/bytecodereader/util/GenericUtil.kt:59-75 | `LA;X` makes `parseFull` fail with the NPE. |
| FullSignature.TruncatedInterfaceExample | src/main/kotlin/com/github/jonathanxd/kores/bytecodereader/util/GenericUtil.kt:59-75 | `LA;LB` makes `parseFull` fail with the NPE, instead of reading `A` as the supertype. |
| FullSignature.LoopKeepsMisreadType | src/main/kotlin/com/github/jonathanxd/kores/bytecodereader/util/GenericUtil.kt:59-75 | A remainder that `parse` reads as one type although it is not that type's own text is kept as the supertype or the next interface. The loop then stops, because the text read so far no longer matches the signature. |
| FullSignature.CloseEndedInterfaceExample | src/main/kotlin/com/github/jonathanxd/kores/bytecodereader/util/GenericUtil.kt:59-75 | `LA;LB>` parses to the supertype `A` and the interface `B`: the `>` ends `B`'s name like a `;`. |
| FullSignature.ColonInterfaceExample | src/main/kotlin/com/github/jonathanxd/kores/bytecodereader/util/GenericUtil.kt:59-75 | `LA;:LB;` parses to the supertype `A` and the interface `B`: the `:` before `B` is skipped. |
| FullSignature.ArgumentAbortsExample | src/main/kotlin/com/github/jonathanxd/kores/bytecodereader/util/GenericUtil.kt:142-165 | `LA<X>;` makes `parseFull` fail with the NPE, because `X` is no type argument. |
| FullSignature.LoopFailsWithParse | src/main/kotlin/com/github/jonathanxd/kores/bytecodereader/util/GenericUtil.kt:59-62 | A remainder that `parse` cannot read makes the loop fail with the NPE, whatever was found before it. |
| FullSignature.BoundVarInterfaceExample | src/main/kotlin/com/github/jonathanxd/kores/bytecodereader/util/GenericUtil.kt:59-75 | `LA;<B:LC;>` parses to the supertype `A` and the interface `B extends C`: the remainder goes to the bound block, whose one bounded variable is kept. |
| FullSignature.MissingBoundAbortsExample | src/main/kotlin/com/github/jonathanxd/kores/bytecodereader/util/GenericUtil.kt:96-116 | `LA;<B:X` makes `parseFull` fail with the NPE: the bound block's bound `X` is no type, and the `!!` on it throws. |
| EmulatedFrame.Wrap | src/main/kotlin/com/github/jonathanxd/kores/bytecodereader/env/EmulatedFrame.kt:79 | Kotlin `Int` arithmetic: the result is congruent to the exact value modulo 2^32, and equal to it when it fits. |
| EmulatedFrame.WrapInjective | src/main/kotlin/com/github/jonathanxd/kores/bytecodereader/env/EmulatedFrame.kt:77-81 | Fewer than 2^32 consecutive slot numbers never wrap onto one another. |
| EmulatedFrame.NewFrame | src/main/kotlin/com/github/jonathanxd/kores/bytecodereader/env/EmulatedFrame.kt:41-57 | A new frame has one empty root scope, and loading any slot from it fails. |
| EmulatedFrame.EnterStack | src/main/kotlin/com/github/jonathanxd/kores/bytecodereader/env/EmulatedFrame.kt:60-62 | Entering opens an empty scope one level deeper. The outer scopes, the table and the label are kept. |
| EmulatedFrame.ExitStack | src/main/kotlin/com/github/jonathanxd/kores/bytecodereader/env/EmulatedFrame.kt:64-67 | Exiting fails exactly at the root, with "Cannot exit root stack". Otherwise it drops the current scope and keeps the table and the label. |
| EmulatedFrame.EnterThenExit | src/main/kotlin/com/github/jonathanxd/kores/bytecodereader/env/EmulatedFrame.kt:60-67 | Exiting right after entering restores exactly the frame from before. |
| EmulatedFrame.ExitThenEnter | src/main/kotlin/com/github/jonathanxd/kores/bytecodereader/env/EmulatedFrame.kt:60-67 | Below the root, exiting and then entering gives the same frame with an emptied current scope. |
| EmulatedFrame.NestedScopes | src/main/kotlin/com/github/jonathanxd/kores/bytecodereader/env/EmulatedFrame.kt:60-67 | A run of enters and exits that never goes below a given depth succeeds. It keeps every scope below that depth, and it ends at the start depth plus the run's balance. |
| EmulatedFrame.WellNestedScopes | src/main/kotlin/com/github/jonathanxd/kores/bytecodereader/env/EmulatedFrame.kt:60-67 | A balanced run whose every prefix has at least as many enters as exits gives back exactly the frame it started from. |
| EmulatedFrame.ScopesFailAtRoot | src/main/kotlin/com/github/jonathanxd/kores/bytecodereader/env/EmulatedFrame.kt:64-67 | A run of enters and exits fails exactly when some prefix exits more scopes than there are above the root, and then with "Cannot exit root stack". A successful run leaves the table and the label untouched. |
| EmulatedFrame.Push | src/main/kotlin/com/github/jonathanxd/kores/bytecodereader/env/EmulatedFrame.kt:131-133 | Pushing appends to the current scope only. The other scopes, the table and the label are kept. |
| EmulatedFrame.Pop | src/main/kotlin/com/github/jonathanxd/kores/bytecodereader/env/EmulatedFrame.kt:112-114 | Popping fails exactly on an empty current scope. Otherwise pushing the popped value back gives the frame from before. |
| EmulatedFrame.PushThenPop | src/main/kotlin/com/github/jonathanxd/kores/bytecodereader/env/EmulatedFrame.kt:112-133 | Popping right after a push returns the pushed value and the frame from before. |
| EmulatedFrame.Load | src/main/kotlin/com/github/jonathanxd/kores/bytecodereader/env/EmulatedFrame.kt:122-124 | Loading fails exactly on a slot that was never stored. |
| EmulatedFrame.TableStore | src/main/kotlin/com/github/jonathanxd/kores/bytecodereader/env/EmulatedFrame.kt:91-105 | After a store the slot loads the stored value. Every other slot, the scopes, the label and the table's position are unchanged. |
| EmulatedFrame.Store | src/main/kotlin/com/github/jonathanxd/kores/bytecodereader/env/EmulatedFrame.kt:103-105 | Storing a variable access binds the slot and changes nothing else. |
| EmulatedFrame.StoreAccess | src/main/kotlin/com/github/jonathanxd/kores/bytecodereader/env/EmulatedFrame.kt:91-93 | Storing an access binds the slot and changes nothing else, exactly as `store` does. |
| EmulatedFrame.StoredUnique | src/main/kotlin/com/github/jonathanxd/kores/bytecodereader/env/EmulatedFrame.kt:91-105 | The effect of a store is determined: two frames that both satisfy it are equal. |
| EmulatedFrame.StoreOverwrites | src/main/kotlin/com/github/jonathanxd/kores/bytecodereader/env/EmulatedFrame.kt:103-105 | Storing twice at one slot is the same as storing the second value only. |
| EmulatedFrame.StoreSameValue | src/main/kotlin/com/github/jonathanxd/kores/bytecodereader/env/EmulatedFrame.kt:103-105 | Storing a slot's own value back leaves the frame unchanged. |
| EmulatedFrame.StoreFromStack | src/main/kotlin/com/github/jonathanxd/kores/bytecodereader/env/EmulatedFrame.kt:112-114 | The operation succeeds exactly when the top of the current scope is a variable access. An empty scope and a wrong kind fail with distinct errors. On success one value is popped and bound to the slot. Every other slot, the label and the table's position are unchanged: the frame after the pop is stored into exactly as `store` does. |
| EmulatedFrame.LoadToStack | src/main/kotlin/com/github/jonathanxd/kores/bytecodereader/env/EmulatedFrame.kt:131-133 | The operation fails exactly when the load fails. Otherwise it pushes exactly the loaded value and leaves the table unchanged. |
| EmulatedFrame.LoadThenStore | src/main/kotlin/com/github/jonathanxd/kores/bytecodereader/env/EmulatedFrame.kt:112-133 | Loading a variable access onto the stack and storing it back at the same slot restores the frame. |
| EmulatedFrame.StoreThenLoad | src/main/kotlin/com/github/jonathanxd/kores/bytecodereader/env/EmulatedFrame.kt:112-133 | Storing from the stack and loading the slot back succeeds and restores the operand scopes. |
| EmulatedFrame.StoreValues | src/main/kotlin/com/github/jonathanxd/kores/bytecodereader/env/EmulatedFrame.kt:77-81 | `values[i]` is loadable from slot `startIndex + i` (with 32-bit wrap-around). Every slot not in that range keeps its content. Scopes and labels are unchanged. |
| EmulatedFrame.VisitLabel | src/main/kotlin/com/github/jonathanxd/kores/bytecodereader/env/EmulatedFrame.kt:149-152 | Visiting a label records it as the last label and as the table's position. Every slot and all scopes are unchanged. |
| EmulatedFrame.LastLabelWins | src/main/kotlin/com/github/jonathanxd/kores/bytecodereader/env/EmulatedFrame.kt:149-152 | Visiting two labels in turn is the same as visiting only the second. |
| ClassAnalyzer.InterfaceBit | src/main/kotlin/com/github/jonathanxd/kores/bytecodereader/asm/ClassAnalyzer.kt:57 | A class is an interface exactly when bit 9 (`ACC_INTERFACE`, 0x0200) of its access flags is set. Setting that bit makes any flags an interface, and clearing it makes them a class. |
| ClassAnalyzer.SuperClassOf | src/main/kotlin/com/github/jonathanxd/kores/bytecodereader/asm/ClassAnalyzer.kt:61-71 | The superclass is generic exactly when the signature has a supertype, and is then that supertype. Otherwise it is the header's superclass. |
| ClassAnalyzer.InterfacesOf | src/main/kotlin/com/github/jonathanxd/kores/bytecodereader/asm/ClassAnalyzer.kt:62-74 | A non-empty interface list from the signature replaces the header's interfaces. Otherwise the header's are kept. |
| ClassAnalyzer.PartitionSorts | src/main/kotlin/com/github/jonathanxd/kores/bytecodereader/asm/ClassAnalyzer.kt:80-94 | Sorting keeps the constructors and the methods in source order. The static block is the last one among the results, and is the default empty one when there is none. |
| ClassAnalyzer.Assemble | src/main/kotlin/com/github/jonathanxd/kores/bytecodereader/asm/ClassAnalyzer.kt:100-121 | An interface declaration is built exactly for an interface, and it gets no superclass and no constructors. A class declaration gets the chosen superclass and the constructors. Both get the chosen interfaces, the type parameters, the methods, the static block and the fields, and never any inner types. |
| ClassAnalyzer.DerivedSignature | src/main/kotlin/com/github/jonathanxd/kores/bytecodereader/asm/ClassAnalyzer.kt:135-144 | No signature is re-derived exactly when there are no type parameters and neither the superclass nor any interface is generic. A re-derived signature is never empty. |
| ClassAnalyzer.CheckSignature | src/main/kotlin/com/github/jonathanxd/kores/bytecodereader/asm/ClassAnalyzer.kt:129-149 | The check passes exactly when the class's signature equals the re-derived one. Otherwise it fails and reports both. |
| ClassAnalyzer.Analyze | src/main/kotlin/com/github/jonathanxd/kores/bytecodereader/asm/ClassAnalyzer.kt:52-127 | An unparsable signature aborts with the parser's NPE. A result is an interface declaration exactly for an interface, with no inner types. The only other failure is a signature mismatch. |
| ClassAnalyzer.AnalyzeOutcome | src/main/kotlin/com/github/jonathanxd/kores/bytecodereader/asm/ClassAnalyzer.kt:52-149 | Once the signature parses, the analysis fails exactly when the class's signature differs from the re-derived one, reporting both. Otherwise it returns the assembled declaration. |
| ClassAnalyzer.NoSignatureAccepted | src/main/kotlin/com/github/jonathanxd/kores/bytecodereader/asm/ClassAnalyzer.kt:66-149 | A class without a `Signature` attribute parses to the empty signature and always passes the check. It gets the declaration assembled from its header alone. |
| ClassAnalyzer.EmptySignatureRejected | src/main/kotlin/com/github/jonathanxd/kores/bytecodereader/asm/ClassAnalyzer.kt:66-149 | A class whose `Signature` attribute is the empty string parses like one without it. It is nevertheless always rejected: the re-derived signature is absent, and the check compares the two as nullable strings. |
| ClassAnalyzer.WellFormedSignatureAccepted | src/main/kotlin/com/github/jonathanxd/kores/bytecodereader/asm/ClassAnalyzer.kt:66-124 | A class carrying the text of a well-formed signature with a supertype passes the check. Its declaration then carries the signature's type parameters, supertype and interfaces. |
| ClassAnalyzer.FirstVariableOnlyRejected | src/main/kotlin/com/github/jonathanxd/kores/bytecodereader/asm/ClassAnalyzer.kt:124-148 | A class whose bound block goes on after its first bound is always rejected with a signature mismatch. |
| ClassAnalyzer.DerivedAfterOneVariable | src/main/kotlin/com/github/jonathanxd/kores/bytecodereader/asm/ClassAnalyzer.kt:138-146 | A signature re-derived from one type variable differs from every text that goes on after that variable's bound with anything but `>`. |
| ClassAnalyzer.MismatchRejected | src/main/kotlin/com/github/jonathanxd/kores/bytecodereader/asm/ClassAnalyzer.kt:146-148 | A parsed signature whose re-derivation differs from the class's own makes the analysis fail with a mismatch. |
| ClassAnalyzer.TwoVariableClassRejected | src/main/kotlin/com/github/jonathanxd/kores/bytecodereader/asm/ClassAnalyzer.kt:124-148 | The class with signature `<K:LA;V:LB;>LC;` is rejected. |

In three places the code does not do what the program itself evidently expects of it. The model follows the code.

- **Several type variables.** `checkSignature` throws "Signature parsed incorrectly" whenever the signature re-derived from the parsed declaration differs from the one the class carried. That fatal check only makes sense if parsing is meant to round-trip every signature a compiler writes. The bound block, however, reads only up to the first `:` and one bound after it. A class with two or more type variables therefore parses to its first variable only, with no supertype, and its analysis always fails the signature check. `FullSignature.FirstVariableOnly`, `FullSignature.TwoVariableExample` and `ClassAnalyzer.FirstVariableOnlyRejected` state this. The round trip `FullSignature.FullRoundTrip` is proved for the signatures the code does handle: at most one type variable.
- **Empty signatures.** `parseFull` treats an empty `Signature` string like an absent one. The analysis nevertheless rejects it, because the re-derived signature of a class with nothing generic is absent and `checkSignature` compares the two as nullable strings (`ClassAnalyzer.EmptySignatureRejected`).
- **Malformed supertypes.** The sub-parsers return `null` for text they cannot read, and the supertype loop has a `break` for a remainder that yields no single type. This suggests malformed text is meant to end the list quietly. The loop, however, hands each remainder to `parse(typeResolver, sub)`, whose `!!`s turn a null into an NPE.
  - A remainder that does not start with `<` goes to `parseTypeOrVar`, and one it cannot read makes `parseFull` throw. Examples are a trailing interface cut off before its `;` (`LA;LB`), a remainder that starts with none of `<`, `:`, `L`, `T` (`LA;X`), and a failing type argument (`LA<X>;`).
  - A remainder that starts with `<` goes to the bound block instead. Without a `:` it yields no type, and only then is the `break` reached (`LA;<B`). With a `:` it yields one bounded variable. That variable is kept as an interface when its bound can be read (`LA;<B:LC;>`). When the bound cannot be read, the `!!` on it throws (`LA;<B:X`).
  - Text that `parseTypeOrVar` can read but that is not a type's own text is also kept: a `>`-ended name (`LA;LB>`) or a `:`-prefixed type (`LA;:LB;`) is read as an interface.
  - Whenever the kept type's own text is not what follows in the signature, the prefix check then stops the loop (`FullSignature.LoopKeepsMisreadType`).
  - `FullSignature.TruncatedInterfaceExample`, `FullSignature.NonTypeAbortsExample`, `FullSignature.ArgumentAbortsExample`, `FullSignature.BoundTextStopsExample`, `FullSignature.BoundVarInterfaceExample`, `FullSignature.MissingBoundAbortsExample`, `FullSignature.CloseEndedInterfaceExample` and `FullSignature.ColonInterfaceExample` state these cases.

## Left out

- Type resolution (`resolveUnknown(...).koresType`, `typeResolver.resolve`) is outside the model. Resolved types are their internal names as written in the class file (`java/util/List`, not `java.util.List`), and a declaration's qualified name is the class's internal name.
- The serialisers `javaSpecName`, `genericSignatureToDescriptor` and `genericTypesToDescriptor` are not part of this model. `Generics.SpecName` and `Generics.SignatureDescriptor` write types in the JVM signature grammar (section 4.7.9.1 of the Java Virtual Machine Specification), and `ClassAnalyzer.DerivedSignature` re-derives a class signature from them. An interface bound (`T::LI;`) is not written back with its double colon.
- FullSignature.FullRoundTrip: proved only for well-formed signatures (`FullSignature.WfSignature`): at most one type variable, whose name holds no `:` or `<`; bounds, supertypes and interfaces that are class types or type variables with names free of `;`, `<` and `>`; and no interfaces without a supertype. These are the signatures the code itself can round-trip; wildcards, primitives and arrays are not parsed by the code at all.
- ClassAnalyzer.WellFormedSignatureAccepted: requires the signature to name a supertype, and the header to list no interfaces when the signature lists none. These are the conditions under which the re-derived signature is the one carried.
- `storeInfo` and `getInfo` (variable information by slot and label range) are left out, because the body of `LocalVariableTable` is not part of this model. `visitLabel`'s call into the table is modelled as recording the table's position only.
- `varList` (`VariableList`) is left out: it is a view of the table with no behaviour of its own here.
- The bodies of `LocalVariableTable` and `StackManager` are not part of this model. The table is a map from slot to instruction, and each operand scope is a LIFO sequence. Loading a missing slot fails with `MissingSlot`, and popping an empty scope fails with `EmptyStack`. Both are assumptions about that unseen code.
- `lateinit var lastLabel` is an `Option`. Reading it before any label was visited is not modelled, since the frame never reads it.
- Modifiers (`ModifierUtil.fromAccess`), the environment's `TYPE_DECLARATION_REF` entry and the Kores builders' own validation are left out. Only the fields the analysis fills in are modelled.
- `MethodAnalyzer.analyze` and `FieldAnalyzer.analyze` are not part of this model. Their results are inputs: a method result is a constructor, a method or a static block, so the `ClassCastException` of `analyze as StaticBlock` cannot arise.
- Null header lists (`classNode.interfaces`, `methods`, `fields`) are modelled as empty sequences, which is what the Kotlin falls back to. A missing `superName` (only `java/lang/Object` has none) is not modelled.
- The exception types (`NullPointerException`, `IllegalStateException`) and their messages collapse into the `Error` values of `Outcomes`. The state a failing call leaves behind is not modelled, because every failure aborts the analysis.
- `ASMHelper.kt` holds unchecked-cast iteration helpers with no behaviour of their own, and is left out.

=== FILE: class_analyzer.dfy ===
/** The decisions `ClassAnalyzer.analyze` takes for one class: interface or
    class, which supertype and interfaces win, how method-analysis results are
    sorted, which declaration is assembled, and the fatal check that the
    signature re-derived from the declaration is the one the class carried.
    Type resolution and the member analyzers are outside the model: resolved
    types are their internal names, and member analyses arrive as results. */
module ClassAnalyzer {
  import opened Outcomes
  import opened Generics
  import opened GenericUtil
  import opened ParserForms
  import opened FullSignature

  // ---------------------------------------------------------------------
  // Access flags
  // ---------------------------------------------------------------------

  /** `ACC_INTERFACE` of the class-file access flags (section 4.1 of the Java
      Virtual Machine Specification, table 4.1-B). */
  const ACC_INTERFACE: bv32 := 0x0200

  /** A class is an interface when its `ACC_INTERFACE` flag is set. */
  predicate IsInterface(access: bv32)
  {
    access & ACC_INTERFACE != 0
  }

  /** The interface test reads bit 9 of the flags and nothing else. */
  lemma InterfaceBit(access: bv32)
    ensures IsInterface(access) <==> (access >> 9) & 1 == 1
    ensures IsInterface(access | ACC_INTERFACE)
    ensures !IsInterface(access & !ACC_INTERFACE)
    ensures IsInterface(access) <==> access & ACC_INTERFACE == ACC_INTERFACE
  {
  }

  // ---------------------------------------------------------------------
  // Inputs and outputs
  // ---------------------------------------------------------------------

  /** A supertype as the declaration holds it: a raw type resolved from a
      name in the class header, or a generic type from the signature. */
  datatype TypeRef = Raw(name: string) | Gen(generic: Generic)

  /** What the method analyzer makes of one method: a constructor, a method,
      or the class initializer's static block. */
  datatype MethodResult =
    | ConstructorResult(constructorId: nat)
    | MethodDeclResult(methodId: nat)
    | StaticBlockResult(blockId: nat)

  /** The decoded class: access flags, name, the header's superclass and
      interface names, the `Signature` attribute if any, and the results of
      analysing its methods and fields, in declaration order. */
  datatype ClassNode = ClassNode(
    access: bv32,
    name: string,
    superName: string,
    interfaces: seq<string>,
    signature: Option<string>,
    methods: seq<MethodResult>,
    fields: seq<nat>)

  /** Method results sorted by kind. `staticBlock` is `None` for the default,
      empty static block. */
  datatype Members = Members(constructors: seq<nat>, methods: seq<nat>, staticBlock: Option<nat>)

  /** The declaration `analyze` builds. An interface has no superclass and no
      constructors. */
  datatype Declaration =
    | InterfaceDecl(
        qualifiedName: string, genericSignature: seq<Generic>, implementations: seq<TypeRef>,
        staticBlock: Option<nat>, fields: seq<nat>, methods: seq<nat>, innerTypes: seq<nat>)
    | ClassDecl(
        qualifiedName: string, genericSignature: seq<Generic>, superClass: TypeRef,
        implementations: seq<TypeRef>, constructors: seq<nat>,
        staticBlock: Option<nat>, fields: seq<nat>, methods: seq<nat>, innerTypes: seq<nat>)

  // ---------------------------------------------------------------------
  // Supertypes
  // ---------------------------------------------------------------------

  function Raws(names: seq<string>): (r: seq<TypeRef>)
    ensures |r| == |names| && forall i :: 0 <= i < |r| ==> r[i] == Raw(names[i])
  {
    seq(|names|, i requires 0 <= i < |names| => Raw(names[i]))
  }

  function Gens(gs: seq<Generic>): (r: seq<TypeRef>)
    ensures |r| == |gs| && forall i :: 0 <= i < |r| ==> r[i] == Gen(gs[i])
  {
    seq(|gs|, i requires 0 <= i < |gs| => Gen(gs[i]))
  }

  /** The superclass the declaration gets: the signature's supertype when it
      has one, otherwise the header's superclass. */
  function SuperClassOf(node: ClassNode, sig: Signature): (r: TypeRef)
    ensures r.Gen? <==> sig.superType.Some?
    ensures r.Gen? ==> r.generic == sig.superType.value
    ensures r.Raw? ==> r.name == node.superName
  {
    if sig.superType.Some? then Gen(sig.superType.value) else Raw(node.superName)
  }

  /** The interfaces the declaration gets: the signature's when it lists any,
      otherwise the header's. */
  function InterfacesOf(node: ClassNode, sig: Signature): (r: seq<TypeRef>)
    ensures |sig.interfaces| > 0 ==> r == Gens(sig.interfaces)
    ensures |sig.interfaces| == 0 ==> r == Raws(node.interfaces)
    ensures forall i :: 0 <= i < |r| ==> (r[i].Gen? <==> |sig.interfaces| > 0)
  {
    if |sig.interfaces| > 0 then Gens(sig.interfaces) else Raws(node.interfaces)
  }

  // ---------------------------------------------------------------------
  // Members
  // ---------------------------------------------------------------------

  /** Sorting one more method result: constructors and methods are appended,
      a static block replaces the one seen before. */
  function AddMember(m: Members, r: MethodResult): Members
  {
    match r
    case ConstructorResult(c) => m.(constructors := m.constructors + [c])
    case MethodDeclResult(d) => m.(methods := m.methods + [d])
    case StaticBlockResult(b) => m.(staticBlock := Some(b))
  }

  /** The `forEach` over the method results, in order. */
  function Partition(rs: seq<MethodResult>): Members
  {
    if |rs| == 0 then Members([], [], None)
    else AddMember(Partition(rs[..|rs| - 1]), rs[|rs| - 1])
  }

  /** The constructors among the results, in order. */
  function ConstructorsIn(rs: seq<MethodResult>): seq<nat>
  {
    if |rs| == 0 then []
    else (if rs[0].ConstructorResult? then [rs[0].constructorId] else []) + ConstructorsIn(rs[1..])
  }

  /** The methods among the results, in order. */
  function MethodsIn(rs: seq<MethodResult>): seq<nat>
  {
    if |rs| == 0 then []
    else (if rs[0].MethodDeclResult? then [rs[0].methodId] else []) + MethodsIn(rs[1..])
  }

  lemma {:induction false} ConstructorsInSnoc(rs: seq<MethodResult>, r: MethodResult)
    ensures ConstructorsIn(rs + [r]) == ConstructorsIn(rs) + (if r.ConstructorResult? then [r.constructorId] else [])
  {
    if |rs| > 0 {
      assert (rs + [r])[1..] == rs[1..] + [r];
      ConstructorsInSnoc(rs[1..], r);
    } else {
      assert [r][1..] == [];
    }
  }

  lemma {:induction false} MethodsInSnoc(rs: seq<MethodResult>, r: MethodResult)
    ensures MethodsIn(rs + [r]) == MethodsIn(rs) + (if r.MethodDeclResult? then [r.methodId] else [])
  {
    if |rs| > 0 {
      assert (rs + [r])[1..] == rs[1..] + [r];
      MethodsInSnoc(rs[1..], r);
    } else {
      assert [r][1..] == [];
    }
  }

  /** Sorting the method results keeps the constructors and the methods in
      their order, and keeps the last static block; with none, the static
      block is the default empty one. */
  lemma {:induction false} PartitionSorts(rs: seq<MethodResult>)
    ensures Partition(rs).constructors == ConstructorsIn(rs)
    ensures Partition(rs).methods == MethodsIn(rs)
    ensures Partition(rs).staticBlock.None? <==> forall k :: 0 <= k < |rs| ==> !rs[k].StaticBlockResult?
    ensures Partition(rs).staticBlock.Some? ==>
      exists k :: 0 <= k < |rs| && rs[k] == StaticBlockResult(Partition(rs).staticBlock.value)
                && forall j :: k < j < |rs| ==> !rs[j].StaticBlockResult?
  {
    if |rs| > 0 {
      var init := rs[..|rs| - 1];
      var last := rs[|rs| - 1];
      assert rs == init + [last];
      PartitionSorts(init);
      ConstructorsInSnoc(init, last);
      MethodsInSnoc(init, last);
      var p := Partition(rs);
      if last.StaticBlockResult? {
        assert rs[|rs| - 1] == StaticBlockResult(p.staticBlock.value);
      } else if p.staticBlock.Some? {
        var k :| 0 <= k < |init| && init[k] == StaticBlockResult(p.staticBlock.value)
                 && forall j :: k < j < |init| ==> !init[j].StaticBlockResult?;
        assert rs[k] == init[k];
      } else {
        assert forall k :: 0 <= k < |init| ==> rs[k] == init[k];
      }
    }
  }

  // ---------------------------------------------------------------------
  // Assembly
  // ---------------------------------------------------------------------

  /** The builder choice: an interface declaration gets the interfaces only;
      a class declaration gets the superclass, the interfaces and the
      constructors. Inner types are never filled in. */
  function Assemble(isInterface: bool, node: ClassNode, sig: Signature, members: Members): (r: Declaration)
    ensures r.InterfaceDecl? <==> isInterface
    ensures r.implementations == InterfacesOf(node, sig)
    ensures r.ClassDecl? ==> r.superClass == SuperClassOf(node, sig) && r.constructors == members.constructors
    ensures r.qualifiedName == node.name && r.genericSignature == sig.signature
    ensures r.methods == members.methods && r.staticBlock == members.staticBlock && r.fields == node.fields
    ensures r.innerTypes == []
  {
    if isInterface then
      InterfaceDecl(node.name, sig.signature, InterfacesOf(node, sig),
                    members.staticBlock, node.fields, members.methods, [])
    else
      ClassDecl(node.name, sig.signature, SuperClassOf(node, sig), InterfacesOf(node, sig),
                members.constructors, members.staticBlock, node.fields, members.methods, [])
  }

  // ---------------------------------------------------------------------
  // The signature self-check
  // ---------------------------------------------------------------------

  /** The signature text of a supertype; a raw type is written as a class
      type without arguments. */
  function RefSpec(t: TypeRef): string
  {
    match t
    case Raw(n) => SpecName(ClassRef(n, []))
    case Gen(g) => SpecName(g)
  }

  function RefSpecs(ts: seq<TypeRef>): string
  {
    if |ts| == 0 then "" else RefSpec(ts[0]) + RefSpecs(ts[1..])
  }

  /** The signature re-derived from a declaration: none when neither the type
      parameters, the superclass nor any interface is generic; otherwise the
      type-parameter block followed by the superclass and the interfaces. */
  function DerivedSignature(typeParameters: seq<Generic>, superClass: TypeRef, interfaces: seq<TypeRef>)
    : (r: Option<string>)
    ensures r.None? <==> |typeParameters| == 0 && superClass.Raw? && forall i :: 0 <= i < |interfaces| ==> interfaces[i].Raw?
    ensures r.Some? ==> |r.value| > 0
  {
    if |typeParameters| == 0 && superClass.Raw? && forall i :: 0 <= i < |interfaces| ==> interfaces[i].Raw? then None
    else Some(SignatureDescriptor(typeParameters) + RefSpec(superClass) + RefSpecs(interfaces))
  }

  /** `checkSignature`: the class's own signature must equal the re-derived
      one; otherwise the analysis aborts, reporting both. */
  function CheckSignature(signature: Option<string>, typeParameters: seq<Generic>,
                          superClass: TypeRef, interfaces: seq<TypeRef>): (r: Result<()>)
    ensures r.Ok? <==> signature == DerivedSignature(typeParameters, superClass, interfaces)
    ensures r.Fail? ==> r.error == SignatureMismatch(signature, DerivedSignature(typeParameters, superClass, interfaces))
  {
    var derived := DerivedSignature(typeParameters, superClass, interfaces);
    if signature != derived then Fail(SignatureMismatch(signature, derived)) else Ok(())
  }

  // ---------------------------------------------------------------------
  // analyze
  // ---------------------------------------------------------------------

  /** `analyze`: parse the signature, let it override the header's supertypes,
      sort the method results, assemble the declaration, then check that the
      signature re-derived from it is the one the class carried. */
  function Analyze(node: ClassNode): (r: Result<Declaration>)
    ensures ParseFull(node.signature).Fail? ==> r == Fail(NullDereference)
    ensures r.Ok? ==> (r.value.InterfaceDecl? <==> IsInterface(node.access)) && r.value.innerTypes == []
    ensures r.Fail? ==> r.error == NullDereference || r.error.SignatureMismatch?
  {
    var sig :- ParseFull(node.signature);
    var decl := Assemble(IsInterface(node.access), node, sig, Partition(node.methods));
    var _ :- CheckSignature(node.signature, sig.signature, SuperClassOf(node, sig), InterfacesOf(node, sig));
    Ok(decl)
  }

  /** `analyze` fails exactly when the signature cannot be parsed or the
      re-derived signature differs; otherwise it yields the assembled declaration. */
  lemma AnalyzeOutcome(node: ClassNode)
    ensures ParseFull(node.signature).Ok? ==>
      var sig := ParseFull(node.signature).value;
      Analyze(node) ==
        if node.signature == DerivedSignature(sig.signature, SuperClassOf(node, sig), InterfacesOf(node, sig))
        then Ok(Assemble(IsInterface(node.access), node, sig, Partition(node.methods)))
        else Fail(SignatureMismatch(node.signature,
                                    DerivedSignature(sig.signature, SuperClassOf(node, sig), InterfacesOf(node, sig))))
  {
  }

  /** The text of generic supertypes is the serialiser's text of the types. */
  lemma {:induction false} RefSpecsOfGens(gs: seq<Generic>)
    ensures RefSpecs(Gens(gs)) == SpecNames(gs)
  {
    if |gs| > 0 {
      assert Gens(gs)[1..] == Gens(gs[1..]);
      RefSpecsOfGens(gs[1..]);
    }
  }

  /** A class without a `Signature` attribute passes the check: nothing is
      generic, so nothing is re-derived. */
  lemma NoSignatureAccepted(node: ClassNode)
    requires node.signature.None?
    ensures Analyze(node) == Ok(Assemble(IsInterface(node.access), node, EmptySignature, Partition(node.methods)))
  {
  }

  /** An empty `Signature` attribute parses like an absent one, but the check
      compares it with the absent re-derived signature and fails. */
  lemma EmptySignatureRejected(node: ClassNode)
    requires node.signature == Some("")
    ensures Analyze(node) == Fail(SignatureMismatch(Some(""), None))
  {
  }

  /** A class whose signature is the text of a well-formed signature with a
      supertype passes the check, provided the header lists no interfaces the
      signature leaves out; the declaration then carries the signature's type
      parameters, supertype and interfaces. */
  lemma WellFormedSignatureAccepted(node: ClassNode, sig: Signature)
    requires WfSignature(sig) && sig.superType.Some?
    requires node.signature == Some(Render(sig))
    requires |sig.interfaces| == 0 ==> node.interfaces == []
    ensures Analyze(node).Ok?
    ensures Analyze(node).value.genericSignature == sig.signature
    ensures Analyze(node).value.implementations == Gens(sig.interfaces)
    ensures Analyze(node).value.ClassDecl? ==> Analyze(node).value.superClass == Gen(sig.superType.value)
  {
    FullRoundTrip(sig);
    var sup := sig.superType.value;
    RefSpecsOfGens(sig.interfaces);
    SpecNamesCons(Supertypes(sig));
    assert Supertypes(sig)[0] == sup && Supertypes(sig)[1..] == sig.interfaces;
    assert InterfacesOf(node, sig) == Gens(sig.interfaces);
    calc {
      DerivedSignature(sig.signature, Gen(sup), Gens(sig.interfaces));
      Some(SignatureDescriptor(sig.signature) + SpecName(sup) + SpecNames(sig.interfaces));
      { assert SignatureDescriptor(sig.signature) + SpecName(sup) + SpecNames(sig.interfaces)
            == SignatureDescriptor(sig.signature) + (SpecName(sup) + SpecNames(sig.interfaces)); }
      Some(Render(sig));
    }
  }

  /** A class whose type-parameter block goes on after its first bound (a
      second type variable, say) is rejected: only the first variable is
      read, no supertype follows it, and the re-derived signature closes the
      block where the class's own goes on. */
  lemma FirstVariableOnlyRejected(node: ClassNode, n: string, b: Generic, rest: string)
    requires BoundName(n) && WfType(b)
    requires node.signature == Some(BoundHead(n, b) + rest) && |rest| > 0 && rest[0] != '>'
    ensures Analyze(node).Fail? && Analyze(node).error.SignatureMismatch?
  {
    FirstVariableOnly(node.signature.value, n, b, rest);
    var sig := Signature([BoundedVar(n, b)], None, []);
    DerivedAfterOneVariable(n, b, SuperClassOf(node, sig), InterfacesOf(node, sig), rest);
    MismatchRejected(node, sig);
  }

  /** A signature re-derived from one type variable closes the type-parameter
      block right after that variable, so it differs from any text that goes
      on with something other than `>` there. */
  lemma DerivedAfterOneVariable(n: string, b: Generic, sup: TypeRef, ifs: seq<TypeRef>, rest: string)
    requires |rest| > 0 && rest[0] != '>'
    ensures DerivedSignature([BoundedVar(n, b)], sup, ifs) != Some(BoundHead(n, b) + rest)
  {
    var head := BoundHead(n, b);
    DescriptorText(n, b);
    var derived := head + ">" + RefSpec(sup) + RefSpecs(ifs);
    assert DerivedSignature([BoundedVar(n, b)], sup, ifs) == Some(derived);
    ClosedAfter(head, RefSpec(sup), RefSpecs(ifs));
    assert (head + rest)[|head|] == rest[0];
  }

  /** The character right after `head` in `head + ">" + x + y` is the `>`.
      Stated apart so that `DerivedAfterOneVariable` uses the fact without
      redoing the sequence reasoning next to `DerivedSignature`. */
  lemma ClosedAfter(head: string, x: string, y: string)
    ensures (head + ">" + x + y)[|head|] == '>'
  {
    assert head + ">" + x + y == head + (">" + (x + y));
  }

  /** A parsed signature whose re-derivation differs from the class's own
      signature makes the analysis fail with a mismatch. */
  lemma MismatchRejected(node: ClassNode, sig: Signature)
    requires ParseFull(node.signature) == Ok(sig)
    requires node.signature != DerivedSignature(sig.signature, SuperClassOf(node, sig), InterfacesOf(node, sig))
    ensures Analyze(node).Fail? && Analyze(node).error.SignatureMismatch?
  {
    AnalyzeOutcome(node);
  }

  /** The class with signature `<K:LA;V:LB;>LC;` (two type variables,
      extending `C`) is rejected. */
  lemma TwoVariableClassRejected(node: ClassNode)
    requires node.signature == Some("<K:LA;V:LB;>LC;")
    ensures Analyze(node).Fail? && Analyze(node).error.SignatureMismatch?
  {
    var a := ClassRef("A", []);
    assert SpecName(a) == "LA;";
    assert BoundHead("K", a) == "<K:LA;";
    assert "<K:LA;V:LB;>LC;" == BoundHead("K", a) + "V:LB;>LC;";
    assert PlainName("A") && BoundName("K");
    FirstVariableOnlyRejected(node, "K", a, "V:LB;>LC;");
  }
}

=== FILE: common.dfy ===
/** Failure-carrying results shared by the parser, the frame and the analyzer.
    Every Java exception the modelled code can raise becomes one `Error` case. */
module Outcomes {

  datatype Option<+T> = None | Some(value: T)

  /** The distinct ways the modelled code aborts. */
  datatype Error =
    | NullDereference                 // `!!` applied to a null parse result (NullPointerException)
    | RootStackExit                   // "Cannot exit root stack"
    | EmptyStack                      // pop from an empty operand stack
    | NotAVariableAccess              // `as VariableAccess` on another instruction (ClassCastException)
    | MissingSlot(slot: int)          // load of a slot that was never stored
    | SignatureMismatch(expected: Option<string>, actual: Option<string>)  // "Signature parsed incorrectly"

  datatype Result<+T> = Ok(value: T) | Fail(error: Error) {
    predicate IsFailure() {
      Fail?
    }

    function PropagateFailure<U>(): Result<U>
      requires Fail?
    {
      Fail(error)
    }

    function Extract(): T
      requires Ok?
    {
      value
    }
  }
}

=== FILE: emulated_frame.dfy ===
/** The emulated JVM frame the bytecode reader keeps while it walks a method
    body: a local-variable table addressed by slot, a chain of operand-stack
    scopes of which only the innermost is in use, and the last label seen.
    The frame is an immutable record; every operation returns the next one. */
module EmulatedFrame {
  import opened Outcomes

  // ---------------------------------------------------------------------
  // 32-bit slot arithmetic
  // ---------------------------------------------------------------------

  const TWO_31: int := 0x8000_0000
  const TWO_32: int := 0x1_0000_0000

  /** A Kotlin `Int`. */
  type Int32 = x: int | -TWO_31 <= x < TWO_31

  /** Two's-complement wrap-around of an unbounded integer into an `Int`. */
  function Wrap(x: int): (r: Int32)
    ensures (r - x) % TWO_32 == 0
    ensures -TWO_31 <= x < TWO_31 ==> r == x
  {
    (x + TWO_31) % TWO_32 - TWO_31
  }

  /** Kotlin's `a + b` on `Int`. */
  function AddInt32(a: Int32, b: Int32): Int32
  {
    Wrap(a + b)
  }

  /** Integers less than 2^32 apart wrap to different `Int`s. */
  lemma WrapInjective(a: int, b: int)
    requires a < b < a + TWO_32
    ensures Wrap(a) != Wrap(b)
  {
    var qa := (a + TWO_31) / TWO_32;
    var qb := (b + TWO_31) / TWO_32;
    assert a + TWO_31 == qa * TWO_32 + (a + TWO_31) % TWO_32;
    assert b + TWO_31 == qb * TWO_32 + (b + TWO_31) % TWO_32;
  }

  // ---------------------------------------------------------------------
  // The frame
  // ---------------------------------------------------------------------

  /** An ASM label node, known only by its identity. */
  datatype Label = Label(id: nat)

  /** What the frame holds: instructions, of which two kinds can be stored in
      the variable table directly. */
  datatype Insn =
    | VariableAccess(variable: string)    // a read of a local variable
    | Access(target: string)              // an access such as `this` or `super`
    | Other(code: nat)                    // any other instruction

  /** An instruction statically typed `VariableAccess`. */
  type VarAccess = i: Insn | i.VariableAccess? witness VariableAccess("")

  /** An instruction statically typed `Access`. */
  type AccessInsn = i: Insn | i.Access? witness Access("")

  /** The local-variable table: the value stored in each slot, and the label
      the reader last forwarded to it. */
  datatype Table = Table(slots: map<Int32, Insn>, position: Option<Label>)

  /** The chain of operand-stack scopes, outermost first; the last one is the
      scope in use. The root scope has no parent, so the chain is never empty. */
  type Scopes = s: seq<seq<Insn>> | |s| > 0 witness [[]]

  datatype Frame = Frame(table: Table, scopes: Scopes, lastLabel: Option<Label>)

  /** A fresh frame: empty table, one empty root scope, no label yet. */
  function NewFrame(): (f: Frame)
    ensures Depth(f) == 1 && Current(f) == []
    ensures forall i: Int32 :: Load(f, i) == Fail(MissingSlot(i))
  {
    Frame(Table(map[], None), [[]], None)
  }

  /** The number of scopes in the chain. */
  function Depth(f: Frame): nat
  {
    |f.scopes|
  }

  /** The operand stack in use, bottom first. */
  function Current(f: Frame): seq<Insn>
  {
    f.scopes[|f.scopes| - 1]
  }

  /** `f` with the operand stack in use replaced by `stack`. */
  function WithCurrent(f: Frame, stack: seq<Insn>): (r: Frame)
    ensures Current(r) == stack && Depth(r) == Depth(f)
    ensures r.scopes[..Depth(f) - 1] == f.scopes[..Depth(f) - 1]
    ensures r.table == f.table && r.lastLabel == f.lastLabel
  {
    f.(scopes := f.scopes[..|f.scopes| - 1] + [stack])
  }

  // ---------------------------------------------------------------------
  // Scopes
  // ---------------------------------------------------------------------

  /** `enterStack`: a new, empty scope whose parent is the scope in use. */
  function EnterStack(f: Frame): (r: Frame)
    ensures Depth(r) == Depth(f) + 1 && Current(r) == []
    ensures r.scopes[..Depth(f)] == f.scopes
    ensures r.table == f.table && r.lastLabel == f.lastLabel
  {
    f.(scopes := f.scopes + [[]])
  }

  /** `exitStack`: back to the parent scope, discarding the scope in use; the
      root scope has no parent. */
  function ExitStack(f: Frame): (r: Result<Frame>)
    ensures r.Fail? <==> Depth(f) == 1
    ensures r.Fail? ==> r.error == RootStackExit
    ensures r.Ok? ==> r.value.scopes == f.scopes[..Depth(f) - 1]
    ensures r.Ok? ==> r.value.table == f.table && r.value.lastLabel == f.lastLabel
  {
    if |f.scopes| == 1 then Fail(RootStackExit)
    else Ok(f.(scopes := f.scopes[..|f.scopes| - 1]))
  }

  /** Entering a scope and leaving it again restores the frame exactly. */
  lemma EnterThenExit(f: Frame)
    ensures ExitStack(EnterStack(f)) == Ok(f)
  {
    assert EnterStack(f).scopes[..Depth(f)] == f.scopes;
  }

  /** Leaving a scope and entering a new one restores the chain's depth and
      its outer scopes, with the scope in use now empty. */
  lemma ExitThenEnter(f: Frame)
    requires Depth(f) > 1
    ensures ExitStack(f).Ok?
    ensures EnterStack(ExitStack(f).value) == WithCurrent(f, [])
  {
  }

  /** A scope operation as the instruction walker issues them. */
  datatype ScopeOp = Enter | Exit

  /** Scopes entered minus scopes left. */
  function Balance(ops: seq<ScopeOp>): int
  {
    if |ops| == 0 then 0
    else Balance(ops[..|ops| - 1]) + (if ops[|ops| - 1] == Enter then 1 else -1)
  }

  /** Applying scope operations in order, stopping at the first failure. */
  function RunScopes(f: Frame, ops: seq<ScopeOp>): Result<Frame>
    decreases |ops|
  {
    if |ops| == 0 then Ok(f)
    else
      var g :- (if ops[0] == Enter then Ok(EnterStack(f)) else ExitStack(f));
      RunScopes(g, ops[1..])
  }

  /** After `ops[..k + 1]` the balance moves by the last operation only. */
  lemma BalanceFront(ops: seq<ScopeOp>, k: nat)
    requires 0 < |ops| && k < |ops|
    ensures Balance(ops[..k + 1]) == (if ops[0] == Enter then 1 else -1) + Balance(ops[1..][..k])
    decreases k
  {
    if k > 0 {
      assert ops[..k + 1][..k] == ops[..k];
      assert ops[1..][..k][..k - 1] == ops[1..][..k - 1];
      BalanceFront(ops, k - 1);
    } else {
      assert ops[..1][..0] == [];
    }
  }

  /** `g` extends `f` by empty scopes only, with table and label untouched. */
  predicate Extends(g: Frame, f: Frame)
  {
    && g.table == f.table && g.lastLabel == f.lastLabel
    && Depth(g) >= Depth(f) && g.scopes[..Depth(f)] == f.scopes
    && forall j :: Depth(f) <= j < Depth(g) ==> g.scopes[j] == []
  }

  /** A run of scope operations that never leaves more scopes than were
      entered after `f` succeeds, and leaves a frame that extends `f` by
      `Balance(ops)` empty scopes. */
  lemma {:induction false} NestedScopes(f: Frame, g: Frame, ops: seq<ScopeOp>)
    requires Extends(g, f)
    requires forall k :: 0 <= k <= |ops| ==> Depth(g) + Balance(ops[..k]) >= Depth(f)
    ensures RunScopes(g, ops).Ok?
    ensures Extends(RunScopes(g, ops).value, f)
    ensures Depth(RunScopes(g, ops).value) == Depth(g) + Balance(ops)
    decreases |ops|
  {
    if |ops| > 0 {
      assert ops[..|ops|] == ops;
      var h := if ops[0] == Enter then EnterStack(g) else ExitStack(g).value;
      assert Balance(ops[..1]) == (if ops[0] == Enter then 1 else -1) by {
        assert ops[..1][..0] == [];
      }
      if ops[0] == Exit {
        assert Depth(g) - 1 >= Depth(f);
        assert h.scopes == g.scopes[..Depth(g) - 1];
      } else {
        assert h.scopes == g.scopes + [[]];
      }
      assert Extends(h, f);
      forall k | 0 <= k <= |ops[1..]| ensures Depth(h) + Balance(ops[1..][..k]) >= Depth(f) {
        BalanceFront(ops, k);
      }
      NestedScopes(f, h, ops[1..]);
      BalanceFront(ops, |ops| - 1);
      assert ops[1..][..|ops| - 1] == ops[1..];
    }
  }

  /** A well-nested run of scope operations (it never leaves the scope it
      started in, and leaves as many as it enters) gives the frame back. */
  lemma WellNestedScopes(f: Frame, ops: seq<ScopeOp>)
    requires forall k :: 0 <= k <= |ops| ==> Balance(ops[..k]) >= 0
    requires Balance(ops) == 0
    ensures RunScopes(f, ops) == Ok(f)
  {
    NestedScopes(f, f, ops);
    var r := RunScopes(f, ops).value;
    assert r.scopes == r.scopes[..Depth(f)];
  }

  /** A run of scope operations fails exactly when some prefix of it would
      leave the root scope; the table and the label are never touched. */
  lemma {:induction false} ScopesFailAtRoot(f: Frame, ops: seq<ScopeOp>)
    ensures RunScopes(f, ops).Ok? <==> forall k :: 0 <= k <= |ops| ==> Depth(f) + Balance(ops[..k]) >= 1
    ensures RunScopes(f, ops).Fail? ==> RunScopes(f, ops).error == RootStackExit
    ensures RunScopes(f, ops).Ok? ==>
      var r := RunScopes(f, ops).value;
      r.table == f.table && r.lastLabel == f.lastLabel && Depth(r) == Depth(f) + Balance(ops)
    decreases |ops|
  {
    assert Balance(ops[..0]) == 0;
    if |ops| > 0 {
      assert ops[..|ops|] == ops;
      var step := if ops[0] == Enter then Ok(EnterStack(f)) else ExitStack(f);
      assert Balance(ops[..1]) == (if ops[0] == Enter then 1 else -1) by {
        assert ops[..1][..0] == [];
      }
      if step.Ok? {
        var h := step.value;
        ScopesFailAtRoot(h, ops[1..]);
        assert Depth(h) == Depth(f) + Balance(ops[..1]);
        forall k | 0 <= k < |ops| ensures Balance(ops[..k + 1]) == Balance(ops[..1]) + Balance(ops[1..][..k]) {
          BalanceFront(ops, k);
        }
        if RunScopes(h, ops[1..]).Ok? {
          forall k | 0 <= k <= |ops| ensures Depth(f) + Balance(ops[..k]) >= 1 {
            if k > 0 {
              assert Depth(f) + Balance(ops[..k]) == Depth(h) + Balance(ops[1..][..k - 1]);
            }
          }
        } else {
          var k :| 0 <= k <= |ops[1..]| && Depth(h) + Balance(ops[1..][..k]) < 1;
          assert Depth(f) + Balance(ops[..k + 1]) < 1;
        }
        assert ops[1..][..|ops| - 1] == ops[1..];
      } else {
        assert Depth(f) + Balance(ops[..1]) < 1;
      }
    }
  }

  // ---------------------------------------------------------------------
  // The operand stack in use
  // ---------------------------------------------------------------------

  /** Push onto the operand stack in use. */
  function Push(f: Frame, v: Insn): (r: Frame)
    ensures Current(r) == Current(f) + [v]
    ensures Depth(r) == Depth(f) && r.scopes[..Depth(f) - 1] == f.scopes[..Depth(f) - 1]
    ensures r.table == f.table && r.lastLabel == f.lastLabel
  {
    WithCurrent(f, Current(f) + [v])
  }

  /** Pop from the operand stack in use; an empty stack has nothing to give. */
  function Pop(f: Frame): (r: Result<(Insn, Frame)>)
    ensures r.Fail? <==> Current(f) == []
    ensures r.Fail? ==> r.error == EmptyStack
    ensures r.Ok? ==> Push(r.value.1, r.value.0) == f
  {
    var s := Current(f);
    if |s| == 0 then Fail(EmptyStack)
    else
      var r := WithCurrent(f, s[..|s| - 1]);
      assert s[..|s| - 1] + [s[|s| - 1]] == s;
      assert f.scopes == f.scopes[..|f.scopes| - 1] + [s];
      Ok((s[|s| - 1], r))
  }

  /** Popping what was just pushed gives back the value and the frame. */
  lemma PushThenPop(f: Frame, v: Insn)
    ensures Pop(Push(f, v)) == Ok((v, f))
  {
    var g := Push(f, v);
    assert Current(g)[..|Current(g)| - 1] == Current(f);
    assert WithCurrent(g, Current(f)).scopes == f.scopes;
  }

  // ---------------------------------------------------------------------
  // The local-variable table
  // ---------------------------------------------------------------------

  /** `load`: the value in a slot; a slot never stored holds nothing. */
  function Load(f: Frame, index: Int32): (r: Result<Insn>)
    ensures r.Fail? <==> index !in f.table.slots
    ensures r.Fail? ==> r.error == MissingSlot(index)
  {
    if index in f.table.slots then Ok(f.table.slots[index]) else Fail(MissingSlot(index))
  }

  /** The effect of one table store: `index` now holds `part`, every other
      slot holds what it held, and the operand stacks and labels are as they were. */
  predicate Stored(f: Frame, r: Frame, part: Insn, index: Int32)
  {
    && Load(r, index) == Ok(part)
    && (forall j: Int32 :: j != index ==> Load(r, j) == Load(f, j))
    && r.scopes == f.scopes && r.lastLabel == f.lastLabel && r.table.position == f.table.position
  }

  /** The store into the table both `store` and `storeAccess` delegate to. */
  function TableStore(f: Frame, part: Insn, index: Int32): (r: Frame)
    ensures Stored(f, r, part, index)
  {
    f.(table := f.table.(slots := f.table.slots[index := part]))
  }

  /** `store`: bind a variable access to a slot. */
  function Store(f: Frame, part: VarAccess, index: Int32): (r: Frame)
    ensures Stored(f, r, part, index)
  {
    TableStore(f, part, index)
  }

  /** `storeAccess`: bind an access to a slot, exactly as `store` does. */
  function StoreAccess(f: Frame, part: AccessInsn, index: Int32): (r: Frame)
    ensures Stored(f, r, part, index)
  {
    TableStore(f, part, index)
  }

  /** Two frames that agree on every load, on the stacks and on the labels are equal. */
  lemma SameLoads(f: Frame, g: Frame)
    requires forall j: Int32 :: Load(f, j) == Load(g, j)
    requires f.scopes == g.scopes && f.lastLabel == g.lastLabel && f.table.position == g.table.position
    ensures f == g
  {
    forall j: Int32 | j in f.table.slots ensures j in g.table.slots && f.table.slots[j] == g.table.slots[j] {
      assert Load(f, j) == Load(g, j);
    }
    forall j: Int32 | j in g.table.slots ensures j in f.table.slots {
      assert Load(f, j) == Load(g, j);
    }
    assert f.table.slots == g.table.slots;
  }

  /** The stored effect determines the resulting frame: any two stores of the
      same part into the same slot agree. */
  lemma StoredUnique(f: Frame, r1: Frame, r2: Frame, part: Insn, index: Int32)
    requires Stored(f, r1, part, index) && Stored(f, r2, part, index)
    ensures r1 == r2
  {
    forall j: Int32 ensures Load(r1, j) == Load(r2, j) {
      if j != index {
        assert Load(r1, j) == Load(f, j) == Load(r2, j);
      }
    }
    SameLoads(r1, r2);
  }

  /** A later store to the same slot overwrites an earlier one completely. */
  lemma StoreOverwrites(f: Frame, a: Insn, b: Insn, index: Int32)
    ensures TableStore(TableStore(f, a, index), b, index) == TableStore(f, b, index)
  {
    var g := TableStore(f, a, index);
    forall j: Int32 | j != index ensures Load(TableStore(g, b, index), j) == Load(f, j) {
      assert Load(TableStore(g, b, index), j) == Load(g, j);
    }
    StoredUnique(f, TableStore(g, b, index), TableStore(f, b, index), b, index);
  }

  /** Storing back the value a slot already holds changes nothing. */
  lemma StoreSameValue(f: Frame, index: Int32)
    requires index in f.table.slots
    ensures TableStore(f, f.table.slots[index], index) == f
  {
    var r := TableStore(f, f.table.slots[index], index);
    SameLoads(r, f);
  }

  /** `storeFromStack`: pop the operand stack in use and bind the popped
      value, which must be a variable access, to a slot. */
  function StoreFromStack(f: Frame, index: Int32): (r: Result<Frame>)
    ensures r.Ok? <==> Current(f) != [] && Current(f)[|Current(f)| - 1].VariableAccess?
    ensures Current(f) == [] ==> r == Fail(EmptyStack)
    ensures Current(f) != [] && !Current(f)[|Current(f)| - 1].VariableAccess? ==> r == Fail(NotAVariableAccess)
    ensures r.Ok? ==>
      var top := Current(f)[|Current(f)| - 1];
      Load(r.value, index) == Ok(top) && Push(r.value, top).scopes == f.scopes
    ensures r.Ok? ==> Pop(f).Ok? && Stored(Pop(f).value.1, r.value, Current(f)[|Current(f)| - 1], index)
    ensures r.Ok? ==>
      && (forall j: Int32 :: j != index ==> Load(r.value, j) == Load(f, j))
      && r.value.lastLabel == f.lastLabel && r.value.table.position == f.table.position
  {
    var (v, g) :- Pop(f);
    if v.VariableAccess? then Ok(Store(g, v, index)) else Fail(NotAVariableAccess)
  }

  /** `loadToStack`: push the value in a slot onto the operand stack in use. */
  function LoadToStack(f: Frame, index: Int32): (r: Result<Frame>)
    ensures r.Fail? <==> Load(f, index).Fail?
    ensures r.Fail? ==> r.error == MissingSlot(index)
    ensures r.Ok? ==> r.value == Push(f, Load(f, index).value)
  {
    var v :- Load(f, index);
    Ok(Push(f, v))
  }

  /** Loading a variable access onto the stack and storing it straight back
      into the same slot is the identity. */
  lemma LoadThenStore(f: Frame, index: Int32)
    requires Load(f, index).Ok? && Load(f, index).value.VariableAccess?
    ensures LoadToStack(f, index).Ok?
    ensures StoreFromStack(LoadToStack(f, index).value, index) == Ok(f)
  {
    var v := Load(f, index).value;
    PushThenPop(f, v);
    StoreSameValue(f, index);
  }

  /** Storing from the stack and loading the same slot back restores the
      operand stacks; the slot now holds the value that was on top. */
  lemma StoreThenLoad(f: Frame, index: Int32)
    requires StoreFromStack(f, index).Ok?
    ensures LoadToStack(StoreFromStack(f, index).value, index).Ok?
    ensures LoadToStack(StoreFromStack(f, index).value, index).value.scopes == f.scopes
  {
  }

  /** Slot `j` is `startIndex + k` (in `Int` arithmetic) for some `k < n`. */
  predicate Hit(startIndex: Int32, n: nat, j: Int32)
  {
    exists k: Int32 :: 0 <= k < n && AddInt32(startIndex, k) == j
  }

  /** `storeValues`: store `values[i]` at slot `startIndex + i` (in `Int`
      arithmetic) for every `i`, in index order. */
  method StoreValues(f: Frame, values: seq<VarAccess>, startIndex: Int32) returns (r: Frame)
    requires |values| < TWO_31
    ensures forall i: Int32 :: 0 <= i < |values| ==> Load(r, AddInt32(startIndex, i)) == Ok(values[i])
    ensures forall j: Int32 :: !Hit(startIndex, |values|, j) ==> Load(r, j) == Load(f, j)
    ensures r.scopes == f.scopes && r.lastLabel == f.lastLabel && r.table.position == f.table.position
  {
    r := f;
    var i: Int32 := 0;
    while i < |values| as Int32
      invariant 0 <= i <= |values|
      invariant forall k: Int32 :: 0 <= k < i ==> Load(r, AddInt32(startIndex, k)) == Ok(values[k])
      invariant forall j: Int32 :: !Hit(startIndex, i as nat, j) ==> Load(r, j) == Load(f, j)
      invariant r.scopes == f.scopes && r.lastLabel == f.lastLabel && r.table.position == f.table.position
    {
      var slot := AddInt32(startIndex, i);
      forall k: Int32 | 0 <= k < i ensures AddInt32(startIndex, k) != slot {
        WrapInjective(startIndex + k, startIndex + i);
      }
      var next := Store(r, values[i], slot);
      forall j: Int32 | !Hit(startIndex, i as nat + 1, j) ensures Load(next, j) == Load(f, j) {
        assert AddInt32(startIndex, i) != j;
        assert !Hit(startIndex, i as nat, j);
      }
      r := next;
      i := i + 1;
    }
  }

  // ---------------------------------------------------------------------
  // Labels
  // ---------------------------------------------------------------------

  /** `visitLabel`: remember the label and forward it to the table; slots and
      operand stacks are untouched. */
  function VisitLabel(f: Frame, l: Label): (r: Frame)
    ensures r.lastLabel == Some(l) && r.table.position == Some(l)
    ensures forall j: Int32 :: Load(r, j) == Load(f, j)
    ensures r.scopes == f.scopes
  {
    f.(lastLabel := Some(l), table := f.table.(position := Some(l)))
  }

  /** Only the last visited label counts. */
  lemma LastLabelWins(f: Frame, a: Label, b: Label)
    ensures VisitLabel(VisitLabel(f, a), b) == VisitLabel(f, b)
  {
  }
}

=== FILE: full_signature.dfy ===
/** Whole class signatures: the text a parsed signature stands for, and the
    round trip of `parseFull` over it. This is the property the analyzer's
    fatal self-check relies on. */
module FullSignature {
  import opened Outcomes
  import opened Generics
  import opened GenericUtil
  import opened ParserForms
  import opened SignatureRoundTrip

  // ---------------------------------------------------------------------
  // Serialising a class signature
  // ---------------------------------------------------------------------

  /** The supertype (when there is one) followed by the interfaces, in the
      order a class signature writes them. */
  function Supertypes(sig: Signature): seq<Generic>
  {
    (if sig.superType.Some? then [sig.superType.value] else []) + sig.interfaces
  }

  /** The class-signature text of a parsed signature: the type-parameter
      block, then the supertype and the interfaces. */
  function Render(sig: Signature): string
  {
    SignatureDescriptor(sig.signature) + SpecNames(Supertypes(sig))
  }

  /** A type-variable name the bound block reads back unchanged: it holds no
      `:` (which ends it), no `<` (which the block drops) and no end marker. */
  predicate BoundName(n: string)
  {
    forall k :: 0 <= k < |n| ==> n[k] !in {':', '<', DONE}
  }

  /** The signatures `parseFull` can produce from well-formed text: at most
      one bounded type variable, interfaces only after a supertype, and only
      well-formed types. */
  predicate WfSignature(sig: Signature)
  {
    && |sig.signature| <= 1
    && (|sig.signature| == 1 ==>
          sig.signature[0].BoundedVar? && BoundName(sig.signature[0].name) && WfType(sig.signature[0].bound))
    && (|sig.interfaces| > 0 ==> sig.superType.Some?)
    && forall k :: 0 <= k < |Supertypes(sig)| ==> WfType(Supertypes(sig)[k])
  }

  /** What the supertype loop has found after reading the types `ts`, starting
      from `superType` and `interfaces`: the first type becomes the supertype
      if there was none yet, every other type is appended as an interface. */
  function Collected(superType: Option<Generic>, interfaces: seq<Generic>, ts: seq<Generic>)
    : (Option<Generic>, seq<Generic>)
  {
    if superType.Some? then (superType, interfaces + ts)
    else if |ts| == 0 then (None, interfaces)
    else (Some(ts[0]), interfaces + ts[1..])
  }

  // ---------------------------------------------------------------------
  // Text lemmas
  // ---------------------------------------------------------------------

  /** `cs` without a character it does not contain is `cs` itself. */
  lemma {:induction false} WithoutAbsent(cs: string, c: char)
    requires c !in cs
    ensures Without(cs, c) == cs
  {
    if |cs| > 0 {
      assert forall x :: x in cs[1..] ==> x in cs;
      WithoutAbsent(cs[1..], c);
    }
  }

  /** The text of a type variable `n` with bound `b`, up to the `>` that
      closes a one-variable type-parameter block. */
  function BoundHead(n: string, b: Generic): string
  {
    "<" + n + ":" + SpecName(b)
  }

  /** The text of a one-variable type-parameter block. */
  lemma DescriptorText(n: string, b: Generic)
    ensures SignatureDescriptor([BoundedVar(n, b)]) == BoundHead(n, b) + ">"
  {
    calc {
      SignatureDescriptor([BoundedVar(n, b)]);
      "<" + TypeParameters([BoundedVar(n, b)]) + ">";
      "<" + (TypeParameter(BoundedVar(n, b)) + TypeParameters([])) + ">";
      { assert TypeParameter(BoundedVar(n, b)) + "" == TypeParameter(BoundedVar(n, b)); }
      "<" + (n + ":" + SpecName(b)) + ">";
      { assert "<" + (n + ":" + SpecName(b)) == "<" + n + ":" + SpecName(b); }
      BoundHead(n, b) + ">";
    }
  }

  /** Over `<name:bound` the bound block stops on the `:` after the name, the
      text it collects, with `<` dropped, is the name, and the bound follows. */
  lemma BoundText(s: string, n: string, b: Generic)
    requires BoundName(n) && IsAt(s, 0, BoundHead(n, b))
    ensures Scan(s, 0, BoundStops) == 1 + |n| && s[1 + |n|] == ':'
    ensures Without(s[0..1 + |n|], '<') == n
    ensures IsAt(s, 2 + |n|, SpecName(b))
  {
    SplitAt(s, 0, "<" + n + ":", SpecName(b));
    SplitAt(s, 0, "<" + n, ":");
    SplitAt(s, 0, "<", n);
    CharAt(s, 0, "<", 0);
    CharAt(s, 1 + |n|, ":", 0);
    forall j | 1 <= j < 1 + |n| ensures s[j] == n[j - 1] {
      CharAt(s, 1, n, j - 1);
    }
    assert forall j :: 0 <= j < 1 + |n| ==> s[j] !in BoundStops;
    assert s[0..1 + |n|] == "<" + n;
    assert Without("<" + n, '<') == Without(n, '<') by {
      assert ("<" + n)[1..] == n;
    }
    assert '<' !in n by {
      forall x | x in n ensures x != '<' {
        var m :| 0 <= m < |n| && n[m] == x;
      }
    }
    WithoutAbsent(n, '<');
  }

  /** The bound block reads exactly one variable, the first one, whatever
      follows its bound. */
  lemma BoundBlockReadsFirst(s: string, n: string, b: Generic)
    requires BoundName(n) && WfType(b) && IsAt(s, 0, BoundHead(n, b))
    ensures Parse(Some(s)) == Ok([BoundedVar(n, b)])
  {
    BoundText(s, n, b);
    TypeRoundTrip(s, 2 + |n|, b);
    CharAt(s, 0, BoundHead(n, b), 0);
    BoundBlockForm(s, 0, "");
    calc {
      Parse(Some(s));
      ParseBoundBlock(s, 0, "");
      Bounded("" + n, ParseTypeOrVar(s, 2 + |n|));
      { assert "" + n == n; }
      Ok([BoundedVar(n, b)]);
    }
  }

  // ---------------------------------------------------------------------
  // Round trip
  // ---------------------------------------------------------------------

  /** The text of a non-empty sequence of well-formed types parses as its first type. */
  lemma ParseFirst(ts: seq<Generic>)
    requires |ts| > 0 && WfType(ts[0])
    ensures Parse(Some(SpecNames(ts))) == Ok([ts[0]])
  {
    var rest := SpecNames(ts);
    SpecNamesCons(ts);
    assert IsAt(rest, 0, rest);
    SplitAt(rest, 0, SpecName(ts[0]), SpecNames(ts[1..]));
    TypeRoundTrip(rest, 0, ts[0]);
    CharAt(rest, 0, SpecName(ts[0]), 0);
  }

  /** One turn of the supertype loop over the text of well-formed types. */
  lemma LoopStep(s: string, str: string, superType: Option<Generic>, interfaces: seq<Generic>, ts: seq<Generic>)
    requires |ts| > 0 && WfType(ts[0]) && s == str + SpecNames(ts)
    ensures s == (str + SpecName(ts[0])) + SpecNames(ts[1..])
    ensures SupertypeLoop(s, str, superType, interfaces)
         == if superType.None? then SupertypeLoop(s, str + SpecName(ts[0]), Some(ts[0]), interfaces)
            else SupertypeLoop(s, str + SpecName(ts[0]), superType, interfaces + [ts[0]])
  {
    SpecNamesCons(ts);
    assert s[|str|..] == SpecNames(ts);
    ParseFirst(ts);
  }

  /** Once the supertype is known, the loop over text made of well-formed
      types appends every one of them to the interfaces, in order. */
  lemma {:induction false} LoopAfterSupertype(s: string, str: string, superType: Option<Generic>,
                                              interfaces: seq<Generic>, ts: seq<Generic>)
    requires superType.Some? && s == str + SpecNames(ts)
    requires forall k :: 0 <= k < |ts| ==> WfType(ts[k])
    ensures SupertypeLoop(s, str, superType, interfaces) == Ok((superType, interfaces + ts))
    decreases |ts|
  {
    if |ts| == 0 {
      assert s == str;
      assert interfaces + ts == interfaces;
    } else {
      WfTail(ts);
      calc {
        SupertypeLoop(s, str, superType, interfaces);
        { LoopStep(s, str, superType, interfaces, ts); }
        SupertypeLoop(s, str + SpecName(ts[0]), superType, interfaces + [ts[0]]);
        { LoopStep(s, str, superType, interfaces, ts);
          LoopAfterSupertype(s, str + SpecName(ts[0]), superType, interfaces + [ts[0]], ts[1..]); }
        Ok((superType, interfaces + [ts[0]] + ts[1..]));
        { assert interfaces + [ts[0]] + ts[1..] == interfaces + ts; }
        Ok((superType, interfaces + ts));
      }
    }
  }

  /** The supertype loop over text made of well-formed types reads every one
      of them back, in order, and stops at the end of the text. */
  lemma LoopRoundTrip(s: string, str: string, superType: Option<Generic>,
                      interfaces: seq<Generic>, ts: seq<Generic>)
    requires s == str + SpecNames(ts)
    requires forall k :: 0 <= k < |ts| ==> WfType(ts[k])
    ensures SupertypeLoop(s, str, superType, interfaces) == Ok(Collected(superType, interfaces, ts))
  {
    if superType.Some? {
      LoopAfterSupertype(s, str, superType, interfaces, ts);
    } else if |ts| == 0 {
      assert s == str;
    } else {
      LoopStep(s, str, superType, interfaces, ts);
      WfTail(ts);
      LoopAfterSupertype(s, str + SpecName(ts[0]), Some(ts[0]), interfaces, ts[1..]);
    }
  }

  /** Reading a well-formed signature's supertypes back from scratch yields
      its own supertype and interfaces. */
  lemma CollectedSupertypes(sig: Signature)
    requires WfSignature(sig)
    ensures Collected(None, [], Supertypes(sig)) == (sig.superType, sig.interfaces)
  {
    var ts := Supertypes(sig);
    if sig.superType.Some? {
      assert ts[0] == sig.superType.value && ts[1..] == sig.interfaces;
      assert [] + ts[1..] == sig.interfaces;
    } else {
      assert ts == [];
    }
  }

  /** The round trip for a signature without type parameters. */
  lemma NoParameterRoundTrip(sig: Signature)
    requires WfSignature(sig) && sig.signature == []
    ensures ParseFull(Some(Render(sig))) == Ok(sig)
  {
    var s := Render(sig);
    var ts := Supertypes(sig);
    CollectedSupertypes(sig);
    assert s == "" + SpecNames(ts);
    if |ts| == 0 {
      assert sig == EmptySignature;
    } else {
      SpecNamesCons(ts);
      assert s[0] == SpecName(ts[0])[0];
      LoopRoundTrip(s, "", None, [], ts);
    }
  }

  /** The round trip for a signature with one bounded type variable. */
  lemma OneParameterRoundTrip(sig: Signature, n: string, b: Generic)
    requires WfSignature(sig) && sig.signature == [BoundedVar(n, b)]
    ensures ParseFull(Some(Render(sig))) == Ok(sig)
  {
    var s := Render(sig);
    var ts := Supertypes(sig);
    var desc := SignatureDescriptor(sig.signature);
    CollectedSupertypes(sig);
    DescriptorText(n, b);
    assert IsAt(s, 0, s);
    SplitAt(s, 0, desc, SpecNames(ts));
    SplitAt(s, 0, BoundHead(n, b), ">");
    CharAt(s, 0, BoundHead(n, b), 0);
    BoundBlockReadsFirst(s, n, b);
    LoopRoundTrip(s, desc, None, [], ts);
  }

  /** `parseFull` reads the text of every well-formed signature back as that
      signature: the type-parameter block, the supertype and the interfaces. */
  lemma FullRoundTrip(sig: Signature)
    requires WfSignature(sig)
    ensures ParseFull(Some(Render(sig))) == Ok(sig)
  {
    if sig.signature == [] {
      NoParameterRoundTrip(sig);
    } else {
      OneParameterRoundTrip(sig, sig.signature[0].name, sig.signature[0].bound);
    }
  }

  // ---------------------------------------------------------------------
  // What the one-variable bound block does to longer blocks
  // ---------------------------------------------------------------------

  /** A type-parameter block whose first bound is followed by anything but
      the closing `>` (a second type variable, say) yields only that first
      variable; its text is then no prefix of the signature, so neither a
      supertype nor an interface is read. */
  lemma FirstVariableOnly(s: string, n: string, b: Generic, rest: string)
    requires BoundName(n) && WfType(b)
    requires s == BoundHead(n, b) + rest && |rest| > 0 && rest[0] != '>'
    ensures ParseFull(Some(s)) == Ok(Signature([BoundedVar(n, b)], None, []))
  {
    assert IsAt(s, 0, s);
    SplitAt(s, 0, BoundHead(n, b), rest);
    CharAt(s, 0, BoundHead(n, b), 0);
    BoundBlockReadsFirst(s, n, b);
    DescriptorText(n, b);
    var p := |BoundHead(n, b)|;
    assert s[p] == rest[0];
    assert (BoundHead(n, b) + ">")[p] == '>';
  }

  /** `<K:LA;V:LB;>LC;` declares two type variables and extends `C`, but it
      is read as `K extends A` alone, with no supertype. */
  lemma TwoVariableExample()
    ensures ParseFull(Some("<K:LA;V:LB;>LC;"))
         == Ok(Signature([BoundedVar("K", ClassRef("A", []))], None, []))
  {
    var a := ClassRef("A", []);
    assert SpecName(a) == "LA;";
    assert BoundHead("K", a) == "<K:LA;";
    assert "<K:LA;V:LB;>LC;" == BoundHead("K", a) + "V:LB;>LC;";
    assert PlainName("A") && BoundName("K");
    FirstVariableOnly("<K:LA;V:LB;>LC;", "K", a, "V:LB;>LC;");
  }

  // ---------------------------------------------------------------------
  // Where the supertype loop stops early
  // ---------------------------------------------------------------------

  /** A well-formed type written right after the text read so far is read by
      one turn of the supertype loop: it becomes the supertype if there is
      none yet, and is appended to the interfaces otherwise. */
  lemma LoopReadsType(s: string, str: string, superType: Option<Generic>, interfaces: seq<Generic>, t: Generic)
    requires str <= s && WfType(t) && IsAt(s, |str|, SpecName(t))
    ensures SupertypeLoop(s, str, superType, interfaces)
         == if superType.None? then SupertypeLoop(s, str + SpecName(t), Some(t), interfaces)
            else SupertypeLoop(s, str + SpecName(t), superType, interfaces + [t])
  {
    var rest := s[|str|..];
    assert IsAt(rest, 0, SpecName(t));
    CharAt(rest, 0, SpecName(t), 0);
    TypeRoundTrip(rest, 0, t);
  }

  /** A remainder that starts with `<` and holds no `:` is a bound block
      without a bound: it yields no type, and the loop stops with what it
      has found so far. */
  lemma LoopStopsAtBoundText(s: string, str: string, superType: Option<Generic>, interfaces: seq<Generic>)
    requires |s| > |str| && str <= s
    requires s[|str|] == '<' && ':' !in s[|str|..]
    ensures SupertypeLoop(s, str, superType, interfaces) == Ok((superType, interfaces))
  {
    var rest := s[|str|..];
    BoundBlockForm(rest, 0, "");
    var k := Scan(rest, 0, BoundStops);
    assert Cur(rest, k) != ':' by {
      if k < |rest| { assert rest[k] in rest; }
    }
    assert Parse(Some(rest)) == Ok([]);
  }

  /** A remainder that starts with neither `<`, `:`, `L` nor `T` holds no
      type: `parse` meets a null type-or-variable and throws. */
  lemma LoopAbortsOnNonType(s: string, str: string, superType: Option<Generic>, interfaces: seq<Generic>)
    requires |s| > |str| && str <= s
    requires s[|str|] !in {'<', ':', 'L', 'T'}
    ensures SupertypeLoop(s, str, superType, interfaces) == Fail(NullDereference)
  {
    var rest := s[|str|..];
    assert rest[0] == s[|str|];
    assert !ParseTypeOrVar(rest, 0).Parsed?;
  }

  /** A remainder that is `L` and a plain name without its `;` (a class type
      cut off at the end) holds no type: `parse` meets the null that
      `parseJavaClass` returns at the end of the text and throws. */
  lemma LoopAbortsOnTruncatedClass(s: string, str: string, superType: Option<Generic>,
                                   interfaces: seq<Generic>, n: string)
    requires s == str + ("L" + n) && PlainName(n)
    ensures SupertypeLoop(s, str, superType, interfaces) == Fail(NullDereference)
  {
    var rest := "L" + n;
    assert s[|str|..] == rest;
    assert IsAt(rest, 1, n);
    if |n| > 0 {
      ScanClassFromStart(rest, 0, n);
    }
    assert ParseJavaClass(rest, 0).Absent?;
    Dispatch(rest, 0);
  }

  /** `LA;<B`: after the supertype `A`, the remainder `<B` yields no type and
      the loop stops, keeping `A` as the supertype. */
  lemma BoundTextStopsExample()
    ensures ParseFull(Some("LA;<B")) == Ok(Signature([], Some(ClassRef("A", [])), []))
  {
    var s := "LA;<B";
    var a := ClassRef("A", []);
    assert SpecName(a) == "LA;";
    assert PlainName("A");
    LoopReadsType(s, "", None, [], a);
    assert "" + "LA;" == "LA;" && s[3..] == "<B";
    LoopStopsAtBoundText(s, "LA;", Some(a), []);
  }

  /** `LA;X`: after the supertype `A`, the remainder `X` is no type, and
      `parseFull` throws. */
  lemma NonTypeAbortsExample()
    ensures ParseFull(Some("LA;X")) == Fail(NullDereference)
  {
    var s := "LA;X";
    var a := ClassRef("A", []);
    assert SpecName(a) == "LA;";
    assert PlainName("A");
    LoopReadsType(s, "", None, [], a);
    assert "" + "LA;" == "LA;";
    LoopAbortsOnNonType(s, "LA;", Some(a), []);
  }

  /** `LA;LB`: the interface `B` is cut off before its `;`, and instead of
      ending the supertype list `parseFull` throws. */
  lemma TruncatedInterfaceExample()
    ensures ParseFull(Some("LA;LB")) == Fail(NullDereference)
  {
    var s := "LA;LB";
    var a := ClassRef("A", []);
    assert SpecName(a) == "LA;";
    assert PlainName("A") && PlainName("B");
    LoopReadsType(s, "", None, [], a);
    assert "" + "LA;" == "LA;" && s == "LA;" + ("L" + "B");
    LoopAbortsOnTruncatedClass(s, "LA;", Some(a), [], "B");
  }

  /** A remainder that `parse` reads as one type although it is not that
      type's own text (a `:` before it, or a `>` for its `;`): the type is
      kept, and since the text read so far no longer matches the signature,
      the loop stops right after it. */
  lemma LoopKeepsMisreadType(s: string, str: string, superType: Option<Generic>,
                             interfaces: seq<Generic>, t: Generic)
    requires |s| > |str| && str <= s
    requires Parse(Some(s[|str|..])) == Ok([t])
    requires !(str + SpecName(t) <= s)
    ensures SupertypeLoop(s, str, superType, interfaces)
         == if superType.None? then Ok((Some(t), interfaces)) else Ok((superType, interfaces + [t]))
  {
    var next := str + SpecName(t);
    assert SupertypeLoop(s, str, superType, interfaces)
        == if superType.None? then SupertypeLoop(s, next, Some(t), interfaces)
           else SupertypeLoop(s, next, superType, interfaces + [t]);
  }

  /** A signature without a type-parameter block is what its supertype loop
      finds, read from the start. */
  lemma FullFromLoop(s: string, superType: Option<Generic>, interfaces: seq<Generic>)
    requires |s| > 0 && s[0] != '<'
    requires SupertypeLoop(s, "", None, []) == Ok((superType, interfaces))
    ensures ParseFull(Some(s)) == Ok(Signature([], superType, interfaces))
  {
  }

  /** `LB>` reads as the class `B`: the `>` ends the name like a `;`. */
  lemma CloseEndedRemainder()
    ensures Parse(Some("LB>")) == Ok([ClassRef("B", [])])
  {
    var rest := "LB>";
    Dispatch(rest, 0);
    JavaClassStart(rest, 0);
    ScanClassPlain(rest, 1, "", None);
    assert "" + ['B'] == "B";
    assert ParseTypeOrVar(rest, 0) == Parsed(ClassRef("B", []), 3);
  }

  /** `:LB;` reads as the class `B`: the `:` is skipped. */
  lemma ColonRemainder()
    ensures Parse(Some(":LB;")) == Ok([ClassRef("B", [])])
  {
    var rest := ":LB;";
    var b := ClassRef("B", []);
    assert SpecName(b) == "LB;";
    assert PlainName("B");
    assert IsAt(rest, 1, SpecName(b));
    TypeRoundTrip(rest, 1, b);
    assert ParseTypeOrVar(rest, 0) == ParseTypeOrVar(rest, 1);
  }

  /** After `LA;`, the supertype loop of `s` goes on with `A` as the supertype. */
  lemma SupertypeA(s: string)
    requires IsAt(s, 0, "LA;")
    ensures SupertypeLoop(s, "", None, []) == SupertypeLoop(s, "LA;", Some(ClassRef("A", [])), [])
  {
    var a := ClassRef("A", []);
    assert SpecName(a) == "LA;";
    assert PlainName("A");
    LoopReadsType(s, "", None, [], a);
    assert "" + "LA;" == "LA;";
  }

  /** `LA;LB>`: the `>` ends the name `B` like a `;` would, so `B` becomes
      an interface; the loop then stops at the prefix check. */
  lemma CloseEndedInterfaceExample()
    ensures ParseFull(Some("LA;LB>")) == Ok(Signature([], Some(ClassRef("A", [])), [ClassRef("B", [])]))
  {
    var s := "LA;LB>";
    var a := ClassRef("A", []);
    var b := ClassRef("B", []);
    SupertypeA(s);
    CloseEndedRemainder();
    assert s[3..] == "LB>";
    assert SpecName(b) == "LB;";
    assert !("LA;" + "LB;" <= s) by { assert ("LA;" + "LB;")[5] != s[5]; }
    LoopKeepsMisreadType(s, "LA;", Some(a), [], b);
    assert [] + [b] == [b];
    FullFromLoop(s, Some(a), [b]);
  }

  /** `LA;:LB;`: `parseTypeOrVar` skips the `:`, so `B` becomes an
      interface; the loop then stops at the prefix check. */
  lemma ColonInterfaceExample()
    ensures ParseFull(Some("LA;:LB;")) == Ok(Signature([], Some(ClassRef("A", [])), [ClassRef("B", [])]))
  {
    var s := "LA;:LB;";
    var a := ClassRef("A", []);
    var b := ClassRef("B", []);
    SupertypeA(s);
    ColonRemainder();
    assert s[3..] == ":LB;";
    assert SpecName(b) == "LB;";
    assert !("LA;" + "LB;" <= s) by { assert ("LA;" + "LB;")[3] != s[3]; }
    LoopKeepsMisreadType(s, "LA;", Some(a), [], b);
    assert [] + [b] == [b];
    FullFromLoop(s, Some(a), [b]);
  }

  /** A remainder that `parse` cannot read makes the loop throw. */
  lemma LoopFailsWithParse(s: string, str: string, superType: Option<Generic>, interfaces: seq<Generic>)
    requires |s| > |str| && str <= s
    requires Parse(Some(s[|str|..])).Fail?
    ensures SupertypeLoop(s, str, superType, interfaces) == Fail(NullDereference)
  {
  }

  /** A signature without a type-parameter block whose supertype loop throws
      makes `parseFull` throw. */
  lemma FullFailsFromLoop(s: string)
    requires |s| > 0 && s[0] != '<'
    requires SupertypeLoop(s, "", None, []).Fail?
    ensures ParseFull(Some(s)) == Fail(NullDereference)
  {
  }

  /** `<B:LC;>` reads as the variable `B` bounded by `C`. */
  lemma BoundVarRemainder()
    ensures Parse(Some("<B:LC;>")) == Ok([BoundedVar("B", ClassRef("C", []))])
  {
    var c := ClassRef("C", []);
    assert SpecName(c) == "LC;";
    assert PlainName("C") && BoundName("B");
    assert IsAt("<B:LC;>", 0, BoundHead("B", c));
    BoundBlockReadsFirst("<B:LC;>", "B", c);
  }

  /** `<B:X` names the variable `B`, but its bound `X` is no type. */
  lemma MissingBoundRemainder()
    ensures Parse(Some("<B:X")).Fail?
  {
    var rest := "<B:X";
    BoundBlockForm(rest, 0, "");
    assert Scan(rest, 0, BoundStops) == 2 by {
      assert rest[0] !in BoundStops && rest[1] !in BoundStops && rest[2] in BoundStops;
      assert Scan(rest, 2, BoundStops) == 2;
      assert Scan(rest, 1, BoundStops) == 2;
    }
    assert !ParseTypeOrVar(rest, 3).Parsed?;
  }

  /** `LA;<B:LC;>`: the remainder is a bound block, whose one bounded
      variable `B` becomes an interface; the loop then stops at the prefix
      check. */
  lemma BoundVarInterfaceExample()
    ensures ParseFull(Some("LA;<B:LC;>"))
         == Ok(Signature([], Some(ClassRef("A", [])), [BoundedVar("B", ClassRef("C", []))]))
  {
    var s := "LA;<B:LC;>";
    var a := ClassRef("A", []);
    var v := BoundedVar("B", ClassRef("C", []));
    SupertypeA(s);
    BoundVarRemainder();
    assert s[3..] == "<B:LC;>";
    assert SpecName(v) == "TB;";
    assert !("LA;" + "TB;" <= s) by { assert ("LA;" + "TB;")[3] != s[3]; }
    LoopKeepsMisreadType(s, "LA;", Some(a), [], v);
    assert [] + [v] == [v];
    FullFromLoop(s, Some(a), [v]);
  }

  /** `LA;<B:X`: the remainder is a bound block whose bound `X` is no type,
      and the `!!` on the bound throws. */
  lemma MissingBoundAbortsExample()
    ensures ParseFull(Some("LA;<B:X")) == Fail(NullDereference)
  {
    var s := "LA;<B:X";
    SupertypeA(s);
    MissingBoundRemainder();
    assert s[3..] == "<B:X";
    LoopFailsWithParse(s, "LA;", Some(ClassRef("A", [])), []);
    FullFailsFromLoop(s);
  }

  /** `LA<X>;`: the type argument `X` is no type, the `!!` in the argument
      loop of `parseJavaClass` throws, and so does `parseFull`. */
  lemma ArgumentAbortsExample()
    ensures ParseFull(Some("LA<X>;")) == Fail(NullDereference)
  {
    var s := "LA<X>;";
    assert PlainName("A");
    assert IsAt(s, 0, "L" + "A" + "<" + SpecNames([]));
    ArgumentAborts(s, 0, "A", []);
    assert s[0..] == s;
  }
}

=== FILE: generic_util.dfy ===
/** The generic-signature parser of `GenericUtil`: a forward-only recursive
    descent over a character cursor. Every sub-parser takes the text and the
    cursor position and returns where the cursor stands afterwards. */
module GenericUtil {
  import opened Outcomes
  import opened Generics

  /** Outcome of one sub-parser.
      - `Parsed`: a value, and the cursor position after it;
      - `Absent`: the Kotlin `null` (no value), with the position the cursor stopped at;
      - `Crash`: a `!!` on a null inner result threw a NullPointerException. */
  datatype Step = Parsed(value: Generic, next: nat) | Absent(at: nat) | Crash

  /** The three pieces `parseFull` extracts from a class signature. */
  datatype Signature = Signature(signature: seq<Generic>, superType: Option<Generic>, interfaces: seq<Generic>)

  /** The empty signature: no type parameters, no supertype, no interfaces. */
  const EmptySignature := Signature([], None, [])

  // ---------------------------------------------------------------------
  // Sub-parsers
  // ---------------------------------------------------------------------

  /** `parseTypeOrVar`: skip one `:` if present, give up at the end of the
      text, otherwise read a class type or a type variable. */
  function ParseTypeOrVar(s: string, i: nat): (r: Step)
    requires i <= |s|
    ensures r.Parsed? ==> i < r.next <= |s|
    ensures r.Parsed? ==> !r.value.BoundedVar?
    ensures r.Parsed? ==>
      var j := if s[i] == ':' then i + 1 else i;
      j < |s| && s[j] == (if r.value.ClassRef? then 'L' else 'T')
    ensures Cur(s, i) == DONE ==> r == Absent(i)
    ensures Cur(s, i) == ':' && Cur(s, i + 1) == DONE ==> r == Absent(i + 1)
    decreases |s| - i, 3
  {
    var j := if Cur(s, i) == ':' then i + 1 else i;
    if Cur(s, j) == DONE then Absent(j) else ParseNameType(s, j)
  }

  /** `parseNameType`: `L` starts a class type, `T` a type variable; any other
      lookahead yields no value and leaves the cursor where it was. */
  function ParseNameType(s: string, i: nat): (r: Step)
    requires i <= |s|
    ensures r.Parsed? ==> i < r.next <= |s|
    ensures r.Parsed? ==> i < |s| && (r.value.ClassRef? <==> s[i] == 'L') && (r.value.VarRef? <==> s[i] == 'T')
    ensures Cur(s, i) != 'L' && Cur(s, i) != 'T' ==> r == Absent(i)
    decreases |s| - i, 2
  {
    var c := Cur(s, i);
    if c == 'L' then ParseJavaClass(s, i)
    else if c == 'T' then ParseVar(s, i)
    else Absent(i)
  }

  /** `parseJavaClass`: step over the `L`, then read the class name. */
  function ParseJavaClass(s: string, i: nat): (r: Step)
    requires i <= |s|
    ensures r.Parsed? ==> i < r.next <= |s| && r.value.ClassRef?
    ensures r.Parsed? ==> s[r.next - 1] == ';' || s[r.next - 1] == '>'
    ensures Cur(s, Next(s, i)) == DONE ==> r == Absent(Next(s, i))
    ensures r.Absent? ==> Cur(s, r.at) == DONE
    decreases |s| - i, 1
  {
    var j := Next(s, i);
    if Cur(s, j) == DONE then Absent(j) else ScanClass(s, j, "", None)
  }

  /** The name loop of `parseJavaClass`. `sb` is the text collected so far and
      `generic` the parameterised type built at the last `<`, if any.
      At `;` or `>` the terminator is consumed and the result is the
      parameterised type when one was built, else the plain class `sb`.
      At `<` the collected text names the raw type, the type arguments are read
      up to `>`, and that `>` itself is appended to `sb` before scanning on. */
  function ScanClass(s: string, i: nat, sb: string, generic: Option<Generic>): (r: Step)
    requires i <= |s|
    requires generic.Some? ==> generic.value.ClassRef?
    ensures r.Parsed? ==> i < r.next <= |s| && r.value.ClassRef?
    ensures r.Parsed? ==> s[r.next - 1] == ';' || s[r.next - 1] == '>'
    ensures r.Absent? ==> Cur(s, r.at) == DONE
    decreases |s| - i, 0
  {
    var c := Cur(s, i);
    if c == ';' || c == '>' || c == DONE then
      if c == DONE then Absent(i)
      else Parsed(if generic.Some? then generic.value else ClassRef(sb, []), i + 1)
    else if c == '<' then
      match ParseArgs(s, i + 1, sb, [])
      case Parsed(g, q) => ScanClass(s, q + 1, sb + ['>'], Some(g))
      case _ => Crash
    else ScanClass(s, i + 1, sb + [c], generic)
  }

  /** The `do … while (current != '>')` loop of `parseJavaClass`: read one
      type argument after another (each must be present, else `!!` throws)
      until the cursor stands on `>`. The `>` is left unconsumed. */
  function ParseArgs(s: string, i: nat, name: string, args: seq<Generic>): (r: Step)
    requires i <= |s|
    ensures !r.Absent?
    ensures r.Parsed? ==> i < r.next < |s| && s[r.next] == '>'
    ensures r.Parsed? ==> r.value.ClassRef? && r.value.name == name
    ensures r.Parsed? ==> |r.value.args| > |args| && r.value.args[..|args|] == args
    decreases |s| - i, 4
  {
    match ParseTypeOrVar(s, i)
    case Parsed(b, p) =>
      if Cur(s, p) != '>' then ParseArgs(s, p, name, args + [b])
      else Parsed(ClassRef(name, args + [b]), p)
    case _ => Crash
  }

  /** `parseVar`: step over the `T` and read the variable name up to the first
      `;`, `>` or end; a `;` is consumed, a `>` is not, the end yields no value. */
  function ParseVar(s: string, i: nat): (r: Step)
    requires i <= |s|
    ensures r.Parsed? ==> i < r.next <= |s| && r.value.VarRef?
  {
    VarName(s, Next(s, i), "")
  }

  /** The name loop of `parseVar`, with the text collected so far in `sb`. */
  function VarName(s: string, i: nat, sb: string): (r: Step)
    requires i <= |s|
    ensures r.Parsed? ==> i <= r.next <= |s| && r.value.VarRef?
    decreases |s| - i
  {
    var c := Cur(s, i);
    if c == ';' || c == '>' || c == DONE then
      if c == DONE then Absent(i)
      else Parsed(VarRef(sb), if c == ';' then i + 1 else i)
    else VarName(s, i + 1, sb + [c])
  }

  // ---------------------------------------------------------------------
  // Whole signatures
  // ---------------------------------------------------------------------

  /** The single bound type variable `parse(CharacterIterator, …)` builds:
      present exactly when the bound was parsed, otherwise `!!` throws. */
  function Bounded(name: string, bound: Step): Result<seq<Generic>>
  {
    if bound.Parsed? then Ok([BoundedVar(name, bound.value)]) else Fail(NullDereference)
  }

  /** `parse(CharacterIterator, …)`: the bound block. The text up to the first
      `:` (with every `<` dropped) names one type variable, whose bound is the
      type-or-variable after the `:`. Without a `:` the signature is empty. */
  function ParseBoundBlock(s: string, i: nat, sb: string): (r: Result<seq<Generic>>)
    requires i <= |s|
    ensures r.Ok? ==> |r.value| <= 1
    ensures r.Ok? && |r.value| == 1 ==> r.value[0].BoundedVar?
    ensures r.Fail? ==> r.error == NullDereference
    decreases |s| - i
  {
    var c := Cur(s, i);
    if c != ':' then
      if c == DONE then Ok([])
      else ParseBoundBlock(s, i + 1, if c != '<' then sb + [c] else sb)
    else
      Bounded(sb, ParseTypeOrVar(s, i + 1))
  }

  /** `parse(TypeResolver, String?)`: nothing for an absent or empty string,
      the bound block for a string starting with `<`, and otherwise exactly one
      type-or-variable, whose absence throws. */
  function Parse(str: Option<string>): (r: Result<seq<Generic>>)
    ensures str.None? || str.value == [] ==> r == Ok([])
    ensures r.Ok? ==> |r.value| <= 1
    ensures r.Fail? ==> r.error == NullDereference
    ensures str.Some? && str.value != [] && str.value[0] != '<' ==>
      match ParseTypeOrVar(str.value, 0)
      case Parsed(g, _) => r == Ok([g])
      case _ => r == Fail(NullDereference)
  {
    if str.None? || |str.value| == 0 then Ok([])
    else if str.value[0] == '<' then ParseBoundBlock(str.value, 0, "")
    else
      match ParseTypeOrVar(str.value, 0)
      case Parsed(g, _) => Ok([g])
      case _ => Fail(NullDereference)
  }

  /** The supertype loop of `parseFull`. `str` is the serialisation of what has
      been parsed so far. While it is a proper prefix of the signature, the
      rest is parsed; a chunk that is not exactly one type ends the loop, the
      first type found becomes the supertype and every later one an interface. */
  function SupertypeLoop(s: string, str: string, superType: Option<Generic>, interfaces: seq<Generic>)
    : (r: Result<(Option<Generic>, seq<Generic>)>)
    ensures r.Ok? ==> interfaces <= r.value.1
    ensures r.Ok? && superType.Some? ==> r.value.0 == superType
    ensures r.Ok? && r.value.0.None? ==> r.value.1 == interfaces
    ensures r.Fail? ==> r.error == NullDereference
    ensures !(|s| > |str| && str <= s) ==> r == Ok((superType, interfaces))
    decreases |s| - |str|
  {
    if |s| > |str| && str <= s then
      var sign :- Parse(Some(s[|str|..]));
      if |sign| != 1 then Ok((superType, interfaces))
      else
        var t := sign[0];
        if superType.None? then SupertypeLoop(s, str + SpecName(t), Some(t), interfaces)
        else SupertypeLoop(s, str + SpecName(t), superType, interfaces + [t])
    else Ok((superType, interfaces))
  }

  /** `parseFull`: the type-parameter block (when the signature starts with `<`)
      followed by the supertype and the interfaces. */
  function ParseFull(signature: Option<string>): (r: Result<Signature>)
    ensures signature.None? || signature.value == [] ==> r == Ok(EmptySignature)
    ensures r.Ok? ==> |r.value.signature| <= 1
    ensures r.Ok? && |r.value.interfaces| > 0 ==> r.value.superType.Some?
    ensures r.Ok? && signature.Some? && signature.value != [] && signature.value[0] != '<' ==>
      r.value.signature == []
    ensures r.Fail? ==> r.error == NullDereference
  {
    if signature.None? || |signature.value| == 0 then Ok(EmptySignature)
    else
      var s := signature.value;
      var gs :- if s[0] == '<' then Parse(signature) else Ok([]);
      var str := if |gs| > 0 then SignatureDescriptor(gs) else "";
      var found :- SupertypeLoop(s, str, None, []);
      Ok(Signature(gs, found.0, found.1))
  }
}

=== FILE: generics.dfy ===
/** The generic-type model the signature parser builds, the character cursor it
    walks, and the serialiser that turns generic types back into signature text. */
module Generics {

  /** A generic type as the parser produces it.
      - `ClassRef`: a resolved class type (its internal name) with its type arguments, in order;
      - `VarRef`: an unresolved type variable, known by name only;
      - `BoundedVar`: a declared type variable with one `extends` bound. */
  datatype Generic =
    | ClassRef(name: string, args: seq<Generic>)
    | VarRef(name: string)
    | BoundedVar(name: string, bound: Generic)

  /** What `java.text.CharacterIterator.current()` returns past the last character. */
  const DONE: char := '\U{FFFF}'

  /** The character under the cursor, or DONE at the end of the text. */
  function Cur(s: string, i: nat): (c: char)
    ensures i >= |s| ==> c == DONE
    ensures c != DONE ==> i < |s| && s[i] == c
  {
    if i < |s| then s[i] else DONE
  }

  /** Advancing the cursor: one step forward, never past the end. */
  function Next(s: string, i: nat): (j: nat)
    requires i <= |s|
    ensures j <= |s|
    ensures i < |s| ==> j == i + 1
    ensures i == |s| ==> j == i
  {
    if i < |s| then i + 1 else |s|
  }

  /** Terminators of a class or variable name. */
  const NameStops: set<char> := {';', '>', DONE}

  /** Terminators of the variable name in a bound block. */
  const BoundStops: set<char> := {':', DONE}

  /** The first position at or after `i` whose character is one of `stops`
      (the end of the text always qualifies, because DONE is a stop). */
  function Scan(s: string, i: nat, stops: set<char>): (k: nat)
    requires i <= |s|
    requires DONE in stops
    ensures i <= k <= |s|
    ensures Cur(s, k) in stops
    ensures forall j :: i <= j < k ==> s[j] !in stops
    decreases |s| - i
  {
    if Cur(s, i) in stops then i else Scan(s, i + 1, stops)
  }

  /** `cs` with every occurrence of `c` removed. */
  function Without(cs: string, c: char): (r: string)
    ensures |r| <= |cs|
    ensures c !in r
    ensures forall x :: x in cs && x != c ==> x in r
    ensures forall x :: x in r ==> x in cs
  {
    if |cs| == 0 then []
    else (if cs[0] == c then [] else [cs[0]]) + Without(cs[1..], c)
  }

  // ---------------------------------------------------------------------
  // Serialisation (the signature text a generic type stands for)
  // ---------------------------------------------------------------------

  /** The signature text of one type: `Lname;`, `Lname<args>;` or `Tname;`.
      A bounded variable is written as a reference to the variable. */
  function SpecName(g: Generic): (r: string)
    ensures |r| >= 2
    ensures r[0] == (if g.ClassRef? then 'L' else 'T') && r[|r| - 1] == ';'
    decreases g, 1
  {
    match g
    case ClassRef(n, args) =>
      "L" + n + (if |args| == 0 then "" else "<" + SpecNames(args) + ">") + ";"
    case VarRef(n) => "T" + n + ";"
    case BoundedVar(n, _) => "T" + n + ";"
  }

  /** The concatenated signature text of a sequence of types. */
  function SpecNames(gs: seq<Generic>): (r: string)
    ensures |gs| > 0 ==> |r| >= 2
    decreases gs, 0
  {
    if |gs| == 0 then "" else SpecName(gs[0]) + SpecNames(gs[1..])
  }

  /** The text of a non-empty sequence is the text of its first type
      followed by the text of the rest. */
  lemma SpecNamesCons(gs: seq<Generic>)
    requires |gs| > 0
    ensures SpecNames(gs) == SpecName(gs[0]) + SpecNames(gs[1..])
  {
  }

  /** One entry of a type-parameter block: `name:Bound`. */
  function TypeParameter(g: Generic): string
  {
    match g
    case BoundedVar(n, b) => n + ":" + SpecName(b)
    case _ => SpecName(g)
  }

  function TypeParameters(gs: seq<Generic>): string
  {
    if |gs| == 0 then "" else TypeParameter(gs[0]) + TypeParameters(gs[1..])
  }

  /** The text of a generic signature: empty when there are no type parameters,
      otherwise `<` entries `>`. */
  function SignatureDescriptor(gs: seq<Generic>): (r: string)
    ensures |gs| == 0 <==> r == ""
    ensures |gs| > 0 ==> r[0] == '<' && r[|r| - 1] == '>'
  {
    if |gs| == 0 then "" else "<" + TypeParameters(gs) + ">"
  }

  // ---------------------------------------------------------------------
  // Well-formed types: those the serialiser writes unambiguously
  // ---------------------------------------------------------------------

  /** A name contains none of the characters that end or open a nested argument list. */
  predicate PlainName(n: string)
  {
    forall k :: 0 <= k < |n| ==> n[k] !in {';', '>', '<', DONE}
  }

  /** A type that can appear as a supertype, an interface or a type argument. */
  predicate WfType(g: Generic)
    decreases g
  {
    match g
    case ClassRef(n, args) => PlainName(n) && forall k :: 0 <= k < |args| ==> WfType(args[k])
    case VarRef(n) => PlainName(n)
    case BoundedVar(_, _) => false
  }
}

=== FILE: parser_forms.dfy ===
/** Closed forms of the sub-parsers of `GenericUtil`, and single steps of
    their loops, stated against `Scan` (the first terminator at or after a
    position) instead of the character-by-character recursion. */
module ParserForms {
  import opened Outcomes
  import opened Generics
  import opened GenericUtil

  // ---------------------------------------------------------------------
  // Text placed at a position
  // ---------------------------------------------------------------------

  /** The text `t` occurs in `s` starting at position `i`. */
  predicate IsAt(s: string, i: nat, t: string)
  {
    i + |t| <= |s| && s[i..i + |t|] == t
  }

  lemma SplitAt(s: string, i: nat, a: string, b: string)
    ensures IsAt(s, i, a + b) <==> IsAt(s, i, a) && IsAt(s, i + |a|, b)
  {
    if IsAt(s, i, a) && IsAt(s, i + |a|, b) {
      assert s[i..i + |a + b|] == s[i..i + |a|] + s[i + |a|..i + |a| + |b|];
    }
    if IsAt(s, i, a + b) {
      assert s[i..i + |a|] == s[i..i + |a + b|][..|a|];
      assert s[i + |a|..i + |a| + |b|] == s[i..i + |a + b|][|a|..];
    }
  }

  lemma CharAt(s: string, i: nat, t: string, k: nat)
    requires IsAt(s, i, t)
    requires k < |t|
    ensures i + k < |s| && s[i + k] == t[k]
  {
    assert s[i..i + |t|][k] == s[i + k];
  }

  // ---------------------------------------------------------------------
  // parseVar
  // ---------------------------------------------------------------------

  /** The name loop of `parseVar` collects everything up to the first `;`, `>`
      or end; it consumes a `;`, stops on a `>`, and yields nothing at the end. */
  lemma {:induction false} VarNameForm(s: string, i: nat, sb: string)
    requires i <= |s|
    ensures
      var k := Scan(s, i, NameStops);
      VarName(s, i, sb) == if Cur(s, k) == DONE then Absent(k)
                           else Parsed(VarRef(sb + s[i..k]), if s[k] == ';' then k + 1 else k)
    decreases |s| - i
  {
    var c := Cur(s, i);
    var k := Scan(s, i, NameStops);
    if c == ';' || c == '>' || c == DONE {
      assert sb + s[i..i] == sb;
    } else {
      VarNameForm(s, i + 1, sb + [c]);
      assert sb + [c] + s[i + 1..k] == sb + s[i..k];
    }
  }

  /** `parseVar`: the variable is named by the characters between the `T` and
      the first `;` or `>`; a `;` is consumed, a `>` is not, and running out of
      text yields no value. */
  lemma ParseVarForm(s: string, i: nat)
    requires i <= |s|
    ensures
      var j := Next(s, i);
      var k := Scan(s, j, NameStops);
      ParseVar(s, i) == if Cur(s, k) == DONE then Absent(k)
                        else Parsed(VarRef(s[j..k]), if s[k] == ';' then k + 1 else k)
  {
    VarNameForm(s, Next(s, i), "");
    assert "" + s[Next(s, i)..Scan(s, Next(s, i), NameStops)] == s[Next(s, i)..Scan(s, Next(s, i), NameStops)];
  }

  // ---------------------------------------------------------------------
  // The bound block
  // ---------------------------------------------------------------------

  /** The bound block names its variable by the text before the first `:` with
      every `<` dropped, is empty when no `:` comes before the end, and
      otherwise is exactly one variable bounded by what follows the `:`. */
  lemma {:induction false} BoundBlockForm(s: string, i: nat, sb: string)
    requires i <= |s|
    ensures
      var k := Scan(s, i, BoundStops);
      ParseBoundBlock(s, i, sb) == if Cur(s, k) == DONE then Ok([])
                                   else Bounded(sb + Without(s[i..k], '<'), ParseTypeOrVar(s, k + 1))
    decreases |s| - i
  {
    var c := Cur(s, i);
    var k := Scan(s, i, BoundStops);
    if c == ':' {
      assert Without(s[i..i], '<') == [];
      assert sb + Without(s[i..i], '<') == sb;
    } else if c != DONE {
      BoundBlockForm(s, i + 1, if c != '<' then sb + [c] else sb);
      assert s[i..k][1..] == s[i + 1..k];
      assert Without(s[i..k], '<') == (if c == '<' then [] else [c]) + Without(s[i + 1..k], '<');
      assert (if c != '<' then sb + [c] else sb) + Without(s[i + 1..k], '<') == sb + Without(s[i..k], '<');
    }
  }

  // ---------------------------------------------------------------------
  // parseJavaClass
  // ---------------------------------------------------------------------

  /** The lookahead alone decides which sub-parser reads a type. */
  lemma Dispatch(s: string, i: nat)
    requires i < |s| && (s[i] == 'L' || s[i] == 'T')
    ensures ParseTypeOrVar(s, i) == if s[i] == 'L' then ParseJavaClass(s, i) else ParseVar(s, i)
  {
  }

  /** One step of `parseJavaClass` after the `L`, at a `;`. */
  lemma ScanClassAtEnd(s: string, i: nat, sb: string)
    requires i < |s| && s[i] == ';'
    ensures ScanClass(s, i, sb, None) == Parsed(ClassRef(sb, []), i + 1)
  {
  }

  /** One step of `parseJavaClass` after the `L`, at a `<`. */
  lemma ScanClassAtOpen(s: string, i: nat, sb: string, g: Generic, q: nat)
    requires i < |s| && s[i] == '<'
    requires ParseArgs(s, i + 1, sb, []) == Parsed(g, q)
    ensures ScanClass(s, i, sb, None) == ScanClass(s, q + 1, sb + ['>'], Some(g))
  {
  }

  /** One step of `parseJavaClass` after the `L`, at a `<` whose argument
      loop throws: the whole class type throws. */
  lemma ScanClassAtOpenCrash(s: string, i: nat, sb: string)
    requires i < |s| && s[i] == '<'
    requires ParseArgs(s, i + 1, sb, []) == Crash
    ensures ScanClass(s, i, sb, None) == Crash
  {
  }

  /** A step of the name loop at a `;` once a parameterised type was built. */
  lemma ScanClassAtStop(s: string, i: nat, sb: string, g: Generic)
    requires i < |s| && s[i] == ';' && g.ClassRef?
    ensures ScanClass(s, i, sb, Some(g)) == Parsed(g, i + 1)
  {
  }

  /** `parseJavaClass` hands the text after the `L` to the name loop. */
  lemma JavaClassStart(s: string, i: nat)
    requires i + 1 < |s| && s[i + 1] != DONE
    ensures ParseJavaClass(s, i) == ScanClass(s, i + 1, "", None)
  {
  }

  /** A turn of the argument loop that reads an argument and stands on `>`
      after it ends the loop with that argument last. */
  lemma ArgsStepLast(s: string, i: nat, name: string, pre: seq<Generic>, b: Generic, p: nat)
    requires i <= |s| && ParseTypeOrVar(s, i) == Parsed(b, p) && Cur(s, p) == '>'
    ensures ParseArgs(s, i, name, pre) == Parsed(ClassRef(name, pre + [b]), p)
  {
  }

  /** A turn of the argument loop that reads an argument and does not stand
      on `>` after it goes on right there. */
  lemma ArgsStepOn(s: string, i: nat, name: string, pre: seq<Generic>, b: Generic, p: nat)
    requires i <= |s| && ParseTypeOrVar(s, i) == Parsed(b, p) && Cur(s, p) != '>'
    ensures ParseArgs(s, i, name, pre) == ParseArgs(s, p, name, pre + [b])
  {
  }

  /** A turn of the argument loop that finds no argument throws. */
  lemma ArgsAbortHere(s: string, i: nat, name: string, pre: seq<Generic>)
    requires i <= |s| && !ParseTypeOrVar(s, i).Parsed?
    ensures ParseArgs(s, i, name, pre) == Crash
  {
  }

  /** One step of the name loop over a plain character: it is appended. */
  lemma ScanClassPlain(s: string, i: nat, sb: string, generic: Option<Generic>)
    requires i < |s| && s[i] !in {';', '>', '<', DONE}
    requires generic.Some? ==> generic.value.ClassRef?
    ensures ScanClass(s, i, sb, generic) == ScanClass(s, i + 1, sb + [s[i]], generic)
  {
  }

  /** A plain name without its first character is still plain, and it follows
      that character in the text. */
  lemma PlainNameTail(s: string, i: nat, n: string)
    requires IsAt(s, i, n) && PlainName(n) && |n| > 0
    ensures i < |s| && s[i] == n[0] && s[i] !in {';', '>', '<', DONE}
    ensures IsAt(s, i + 1, n[1..]) && PlainName(n[1..])
  {
    CharAt(s, i, n, 0);
    assert [n[0]] + n[1..] == n;
    SplitAt(s, i, [n[0]], n[1..]);
    forall k | 0 <= k < |n[1..]| ensures n[1..][k] !in {';', '>', '<', DONE} {
      assert n[1..][k] == n[k + 1];
    }
  }

  /** Scanning a class name over plain characters only collects them. */
  lemma {:induction false} ScanClassName(s: string, i: nat, sb: string, generic: Option<Generic>, n: string)
    requires IsAt(s, i, n) && PlainName(n)
    requires generic.Some? ==> generic.value.ClassRef?
    ensures ScanClass(s, i, sb, generic) == ScanClass(s, i + |n|, sb + n, generic)
    decreases |n|
  {
    if |n| > 0 {
      PlainNameTail(s, i, n);
      ScanClassPlain(s, i, sb, generic);
      ScanClassName(s, i + 1, sb + [n[0]], generic, n[1..]);
      assert sb + [n[0]] + n[1..] == sb + n;
    } else {
      assert sb + n == sb;
    }
  }

  /** Scanning the plain class name that follows the `L` at `i` from an empty
      buffer collects exactly that name. */
  lemma ScanClassFromStart(s: string, i: nat, n: string)
    requires IsAt(s, i + 1, n) && PlainName(n)
    ensures ScanClass(s, i + 1, "", None) == ScanClass(s, i + 1 + |n|, n, None)
  {
    ScanClassName(s, i + 1, "", None, n);
    EmptyBuffer(s, i + 1 + |n|, n);
  }

  /** A name collected from an empty buffer is the name itself. Kept apart
      from `ScanClassFromStart` so that the sequence identity is proved
      without the name loop's definition in view. */
  lemma EmptyBuffer(s: string, i: nat, n: string)
    requires i <= |s|
    ensures ScanClass(s, i, "" + n, None) == ScanClass(s, i, n, None)
  {
    assert "" + n == n;
  }

  /** `parseJavaClass` on a name with no `<`: the name is everything after the
      `L` up to the first `;`, `>` or end; the terminator is consumed, and the
      end of the text yields no value. */
  lemma JavaClassWithoutArguments(s: string, i: nat)
    requires i <= |s|
    requires
      var j := Next(s, i);
      '<' !in s[j..Scan(s, j, NameStops)]
    ensures
      var j := Next(s, i);
      var k := Scan(s, j, NameStops);
      ParseJavaClass(s, i) == if Cur(s, k) == DONE then Absent(k)
                              else Parsed(ClassRef(s[j..k], []), k + 1)
  {
    var j := Next(s, i);
    var k := Scan(s, j, NameStops);
    var n := s[j..k];
    if Cur(s, j) != DONE {
      assert PlainName(n) by {
        forall m | 0 <= m < |n| ensures n[m] !in {';', '>', '<', DONE} {
          assert n[m] == s[j + m];
          assert n[m] in n;
        }
      }
      ScanClassName(s, j, "", None, n);
      assert "" + n == n;
    }
  }

}

=== FILE: signature_round_trip.dfy ===
/** The round trip of single types: the text a well-formed class type or
    type variable serialises to parses back as that type, with the cursor
    right after it. The whole-signature round trip builds on it. */
module SignatureRoundTrip {
  import opened Outcomes
  import opened Generics
  import opened GenericUtil
  import opened ParserForms

  // ---------------------------------------------------------------------
  // Sizes (termination measure for the mutual induction over types)
  // ---------------------------------------------------------------------

  function Size(g: Generic): nat
    decreases g, 1
  {
    match g
    case ClassRef(_, args) => 1 + SizeList(args)
    case VarRef(_) => 1
    case BoundedVar(_, b) => 1 + Size(b)
  }

  function SizeList(gs: seq<Generic>): nat
    decreases gs, 0
  {
    if |gs| == 0 then 0 else Size(gs[0]) + SizeList(gs[1..])
  }

  // ---------------------------------------------------------------------
  // Round trip of single types
  // ---------------------------------------------------------------------

  /** `Tname;` with a plain name reads back as the variable `name`, and the `;` is consumed. */
  lemma VarRoundTrip(s: string, i: nat, n: string)
    requires PlainName(n) && IsAt(s, i, "T" + n + ";")
    ensures ParseVar(s, i) == Parsed(VarRef(n), i + |n| + 2)
  {
    SplitAt(s, i, "T", n + ";");
    SplitAt(s, i + 1, n, ";");
    CharAt(s, i + 1 + |n|, ";", 0);
    CharAt(s, i, "T" + n + ";", 0);
    forall m | i + 1 <= m < i + 1 + |n| ensures s[m] !in NameStops {
      CharAt(s, i + 1, n, m - (i + 1));
    }
    var k := Scan(s, i + 1, NameStops);
    assert k == i + 1 + |n|;
    ParseVarForm(s, i);
  }

  /** The serialised text of a class type: `L`, the name, then `;` or the
      argument list in angle brackets and `;`. */
  lemma ClassText(n: string, args: seq<Generic>)
    ensures SpecName(ClassRef(n, args)) == "L" + (n + ClassTail(args))
  {
    if |args| == 0 {
      assert SpecName(ClassRef(n, args)) == "L" + n + "" + ";";
    } else {
      var x := SpecNames(args);
      assert SpecName(ClassRef(n, args)) == "L" + n + ("<" + x + ">") + ";";
      Assoc4("L", n, "<" + x + ">", ";");
      Assoc3("<", x, ">", ";");
    }
  }

  /** Regrouping four strings to the right. */
  lemma Assoc4(a: string, b: string, c: string, d: string)
    ensures a + b + c + d == a + (b + (c + d))
  {
  }

  /** Regrouping the text of an argument list and its `;`. */
  lemma Assoc3(a: string, b: string, c: string, d: string)
    ensures (a + b + c) + d == a + ((b + c) + d)
  {
  }

  /** What follows the name in the text of a class type. */
  function ClassTail(args: seq<Generic>): string
  {
    if |args| == 0 then ";" else "<" + ((SpecNames(args) + ">") + ";")
  }

  /** A one-letter tag, a name and a tail placed at `i` place the name at
      `i + 1` and the tail right after it. */
  lemma TaggedText(s: string, i: nat, tag: string, n: string, rest: string)
    requires |tag| == 1 && IsAt(s, i, tag + (n + rest))
    ensures IsAt(s, i + 1, n) && IsAt(s, i + 1 + |n|, rest)
  {
    SplitAt(s, i, tag, n + rest);
    SplitAt(s, i + 1, n, rest);
  }

  /** After `L` and a plain name, `parseJavaClass` has collected the name and
      stands on what follows it. */
  lemma ClassNamePrefix(s: string, i: nat, n: string)
    requires PlainName(n) && IsAt(s, i + 1, n)
    requires i + 1 + |n| < |s| && s[i + 1 + |n|] != DONE
    ensures ParseJavaClass(s, i) == ScanClass(s, i + 1 + |n|, n, None)
  {
    if |n| > 0 {
      CharAt(s, i + 1, n, 0);
    }
    JavaClassStart(s, i);
    ScanClassFromStart(s, i, n);
  }

  /** At `<`, well-formed arguments, `>` and `;` the name loop yields the
      parameterised class and consumes the `;`. */
  lemma {:induction false} ArgumentListRoundTrip(s: string, q: nat, n: string, args: seq<Generic>)
    requires |args| > 0
    requires forall k :: 0 <= k < |args| ==> WfType(args[k])
    requires IsAt(s, q, "<" + ((SpecNames(args) + ">") + ";"))
    ensures ScanClass(s, q, n, None) == Parsed(ClassRef(n, args), q + |SpecNames(args)| + 3)
    decreases SizeList(args), 2
  {
    var body := SpecNames(args) + ">";
    SplitAt(s, q, "<", body + ";");
    SplitAt(s, q + 1, body, ";");
    CharAt(s, q, "<" + (body + ";"), 0);
    CharAt(s, q + 1 + |body|, ";", 0);
    ArgsRoundTrip(s, q + 1, n, [], args);
    assert [] + args == args;
    ScanClassAtOpen(s, q, n, ClassRef(n, args), q + |body|);
    ScanClassAtStop(s, q + |body| + 1, n + ['>'], ClassRef(n, args));
  }

  /** Where the parts of a class type's text lie when it is written at `i`:
      the name after the `L`, then `;` alone or `<` opening the arguments. */
  lemma ClassLayout(s: string, i: nat, n: string, args: seq<Generic>)
    requires IsAt(s, i, SpecName(ClassRef(n, args)))
    ensures IsAt(s, i + 1, n)
    ensures i + 1 + |n| < |s| && s[i + 1 + |n|] == if |args| == 0 then ';' else '<'
    ensures |args| > 0 ==> IsAt(s, i + 1 + |n|, "<" + ((SpecNames(args) + ">") + ";"))
    ensures |SpecName(ClassRef(n, args))| == if |args| == 0 then |n| + 2 else |n| + |SpecNames(args)| + 4
  {
    var tail := ClassTail(args);
    ClassText(n, args);
    TaggedText(s, i, "L", n, tail);
    CharAt(s, i + 1 + |n|, tail, 0);
  }

  /** A class type without arguments written at `i` reads back as itself, and
      the cursor ends after its `;`. */
  lemma PlainClassRoundTrip(s: string, i: nat, n: string)
    requires PlainName(n) && IsAt(s, i, SpecName(ClassRef(n, [])))
    ensures ParseJavaClass(s, i) == Parsed(ClassRef(n, []), i + |n| + 2)
  {
    ClassLayout(s, i, n, []);
    ClassNamePrefix(s, i, n);
    ScanClassAtEnd(s, i + 1 + |n|, n);
  }

  /** A well-formed class type written at position `i` reads back as itself,
      with or without type arguments, and the cursor ends after its `;`. */
  lemma {:induction false} ClassRoundTrip(s: string, i: nat, n: string, args: seq<Generic>)
    requires WfType(ClassRef(n, args)) && IsAt(s, i, SpecName(ClassRef(n, args)))
    ensures ParseJavaClass(s, i) == Parsed(ClassRef(n, args), i + |SpecName(ClassRef(n, args))|)
    decreases SizeList(args), 4
  {
    WfClass(n, args);
    if |args| == 0 {
      PlainClassRoundTrip(s, i, n);
      assert args == [];
    } else {
      ParamClassRoundTrip(s, i, n, args);
    }
  }

  /** A class type with type arguments written at `i` reads back as itself,
      and the cursor ends after its `;`. */
  lemma {:induction false} ParamClassRoundTrip(s: string, i: nat, n: string, args: seq<Generic>)
    requires |args| > 0 && PlainName(n) && forall k :: 0 <= k < |args| ==> WfType(args[k])
    requires IsAt(s, i, SpecName(ClassRef(n, args)))
    ensures ParseJavaClass(s, i) == Parsed(ClassRef(n, args), i + |SpecName(ClassRef(n, args))|)
    decreases SizeList(args), 3
  {
    ClassLayout(s, i, n, args);
    ClassNamePrefix(s, i, n);
    ArgumentListRoundTrip(s, i + 1 + |n|, n, args);
  }

  /** A well-formed type written at position `i` parses back to itself, and
      the cursor ends right after its text. */
  lemma {:induction false} TypeRoundTrip(s: string, i: nat, g: Generic)
    requires WfType(g) && IsAt(s, i, SpecName(g))
    ensures ParseTypeOrVar(s, i) == Parsed(g, i + |SpecName(g)|)
    decreases Size(g), 0
  {
    CharAt(s, i, SpecName(g), 0);
    Dispatch(s, i);
    match g
    case VarRef(n) =>
      VarRoundTrip(s, i, n);
    case ClassRef(n, args) =>
      ClassRoundTrip(s, i, n, args);
  }

  /** The text of an argument list splits into its first argument and the rest;
      the character after the first argument is `>` exactly when it was the last. */
  lemma ArgsText(s: string, i: nat, args: seq<Generic>)
    requires |args| > 0 && IsAt(s, i, SpecNames(args) + ">")
    ensures IsAt(s, i, SpecName(args[0]))
    ensures IsAt(s, i + |SpecName(args[0])|, SpecNames(args[1..]) + ">")
    ensures |SpecNames(args)| == |SpecName(args[0])| + |SpecNames(args[1..])|
    ensures Cur(s, i + |SpecName(args[0])|) == '>' <==> |args| == 1
  {
    var head := SpecName(args[0]);
    var rest := SpecNames(args[1..]);
    SpecNamesCons(args);
    assert SpecNames(args) + ">" == head + (rest + ">");
    SplitAt(s, i, head, rest + ">");
    CharAt(s, i + |head|, rest + ">", 0);
    if |args| > 1 {
      SpecNamesCons(args[1..]);
      assert (rest + ">")[0] == SpecName(args[1..][0])[0];
    }
  }

  /** Appending the first argument and then the others appends them all. */
  lemma ConsJoin(pre: seq<Generic>, args: seq<Generic>)
    requires |args| > 0
    ensures pre + [args[0]] + args[1..] == pre + args
    ensures |args| == 1 ==> pre + [args[0]] == pre + args
  {
    assert [args[0]] + args[1..] == args;
  }

  /** A well-formed class type has a plain name and well-formed arguments. */
  lemma WfClass(n: string, args: seq<Generic>)
    requires WfType(ClassRef(n, args))
    ensures PlainName(n)
    ensures forall k :: 0 <= k < |args| ==> WfType(args[k])
  {
  }

  /** The arguments after the first are well-formed when all are. */
  lemma WfTail(args: seq<Generic>)
    requires |args| > 0
    requires forall k :: 0 <= k < |args| ==> WfType(args[k])
    ensures forall k :: 0 <= k < |args[1..]| ==> WfType(args[1..][k])
  {
    forall k | 0 <= k < |args[1..]| ensures WfType(args[1..][k]) {
      assert args[1..][k] == args[k + 1];
    }
  }

  /** A non-empty list of well-formed type arguments followed by `>` is read
      completely, in order, and the cursor stops on the `>`. */
  lemma {:induction false} ArgsRoundTrip(s: string, i: nat, name: string, pre: seq<Generic>, args: seq<Generic>)
    requires |args| > 0
    requires forall k :: 0 <= k < |args| ==> WfType(args[k])
    requires IsAt(s, i, SpecNames(args) + ">")
    ensures ParseArgs(s, i, name, pre) == Parsed(ClassRef(name, pre + args), i + |SpecNames(args)|)
    decreases SizeList(args), 1
  {
    ArgsText(s, i, args);
    var p := i + |SpecName(args[0])|;
    TypeRoundTrip(s, i, args[0]);
    ConsJoin(pre, args);
    if |args| == 1 {
      ArgsStepLast(s, i, name, pre, args[0], p);
    } else {
      ArgsStepOn(s, i, name, pre, args[0], p);
      WfTail(args);
      ArgsRoundTrip(s, p, name, pre + [args[0]], args[1..]);
    }
  }

  // ---------------------------------------------------------------------
  // A failing type argument aborts the class type
  // ---------------------------------------------------------------------

  /** A non-empty argument text starts with the `L` or `T` of its first
      argument, never with `>`. */
  lemma ArgsStartNotClose(s: string, i: nat, gs: seq<Generic>)
    requires |gs| > 0 && IsAt(s, i, SpecNames(gs))
    ensures Cur(s, i) != '>'
  {
    SpecNamesCons(gs);
    CharAt(s, i, SpecNames(gs), 0);
    assert SpecNames(gs)[0] == SpecName(gs[0])[0];
  }

  /** Where the parts of a non-empty argument text lie: the first argument at
      `i` and the others right after it. */
  lemma ArgsLayout(s: string, i: nat, ok: seq<Generic>)
    requires |ok| > 0 && IsAt(s, i, SpecNames(ok))
    ensures IsAt(s, i, SpecName(ok[0]))
    ensures IsAt(s, i + |SpecName(ok[0])|, SpecNames(ok[1..]))
    ensures i + |SpecName(ok[0])| + |SpecNames(ok[1..])| == i + |SpecNames(ok)|
  {
    SpecNamesCons(ok);
    SplitAt(s, i, SpecName(ok[0]), SpecNames(ok[1..]));
  }

  /** A well-formed argument not followed by `>` is read, and the loop goes
      on right after it. */
  lemma ArgsTurn(s: string, i: nat, name: string, pre: seq<Generic>, g: Generic)
    requires WfType(g) && IsAt(s, i, SpecName(g))
    requires Cur(s, i + |SpecName(g)|) != '>'
    ensures ParseArgs(s, i, name, pre) == ParseArgs(s, i + |SpecName(g)|, name, pre + [g])
  {
    TypeRoundTrip(s, i, g);
    ArgsStepOn(s, i, name, pre, g, i + |SpecName(g)|);
  }

  /** Well-formed arguments followed by text that holds no type (and that is
      not the `>` closing the list) make the argument loop throw: the `!!`
      on the null argument fires, whichever argument it is. */
  lemma {:induction false} ArgsAbort(s: string, i: nat, name: string, pre: seq<Generic>, ok: seq<Generic>)
    requires forall k :: 0 <= k < |ok| ==> WfType(ok[k])
    requires IsAt(s, i, SpecNames(ok))
    requires |ok| > 0 ==> Cur(s, i + |SpecNames(ok)|) != '>'
    requires !ParseTypeOrVar(s, i + |SpecNames(ok)|).Parsed?
    ensures ParseArgs(s, i, name, pre) == Crash
    decreases |ok|
  {
    if |ok| == 0 {
      ArgsAbortHere(s, i, name, pre);
    } else {
      var tail := ok[1..];
      ArgsLayout(s, i, ok);
      var p := i + |SpecName(ok[0])|;
      var e := i + |SpecNames(ok)|;
      assert p + |SpecNames(tail)| == e;
      if |ok| > 1 {
        ArgsStartNotClose(s, p, tail);
      }
      ArgsTurn(s, i, name, pre, ok[0]);
      WfTail(ok);
      ArgsAbort(s, p, name, pre + [ok[0]], tail);
    }
  }

  /** Where the parts of `L name <` and the arguments after it lie. */
  lemma OpenClassLayout(s: string, i: nat, n: string, ok: seq<Generic>)
    requires IsAt(s, i, "L" + n + "<" + SpecNames(ok))
    ensures IsAt(s, i + 1, n)
    ensures i + 1 + |n| < |s| && s[i + 1 + |n|] == '<'
    ensures IsAt(s, i + |n| + 2, SpecNames(ok))
    ensures i < |s| && s[i] == 'L'
  {
    SplitAt(s, i, "L" + n + "<", SpecNames(ok));
    SplitAt(s, i, "L" + n, "<");
    SplitAt(s, i, "L", n);
    CharAt(s, i, "L", 0);
    CharAt(s, i + 1 + |n|, "<", 0);
  }

  /** `parseJavaClass` throws once the name is read and the argument loop
      after its `<` throws. */
  lemma OpenClassCrash(s: string, i: nat, n: string)
    requires PlainName(n) && IsAt(s, i + 1, n)
    requires i + 1 + |n| < |s| && s[i + 1 + |n|] == '<'
    requires ParseArgs(s, i + |n| + 2, n, []) == Crash
    ensures ParseJavaClass(s, i) == Crash
  {
    var q := i + 1 + |n|;
    assert q + 1 == i + |n| + 2;
    ScanClassAtOpenCrash(s, q, n);
    ClassNamePrefix(s, i, n);
  }

  /** A class type `L name <` whose well-formed arguments so far are followed
      by text that holds no type makes `parseTypeOrVar` throw, instead of
      yielding the class or no value. */
  lemma ArgumentAborts(s: string, i: nat, n: string, ok: seq<Generic>)
    requires PlainName(n) && forall k :: 0 <= k < |ok| ==> WfType(ok[k])
    requires IsAt(s, i, "L" + n + "<" + SpecNames(ok))
    requires |ok| > 0 ==> Cur(s, i + |n| + 2 + |SpecNames(ok)|) != '>'
    requires !ParseTypeOrVar(s, i + |n| + 2 + |SpecNames(ok)|).Parsed?
    ensures ParseTypeOrVar(s, i) == Crash
  {
    OpenClassLayout(s, i, n, ok);
    ArgsAbort(s, i + |n| + 2, n, [], ok);
    OpenClassCrash(s, i, n);
    Dispatch(s, i);
  }

  /** The text of `java/lang/String` as a type argument. This and
      `NestedGenericJoin` hold the string-literal facts of the nested
      example, each in a proof of its own, apart from the parser. */
  lemma StringText()
    ensures SpecNames([ClassRef("java/lang/String", [])]) == "Ljava/lang/String;"
  {
    var inner := ClassRef("java/lang/String", []);
    assert SpecName(inner) == "Ljava/lang/String;";
    assert SpecNames([inner]) == SpecName(inner);
  }

  /** The text of `java/util/List<java/lang/String>`. */
  lemma NestedGenericText()
    ensures SpecName(ClassRef("java/util/List", [ClassRef("java/lang/String", [])]))
         == "Ljava/util/List<Ljava/lang/String;>;"
  {
    var inner := ClassRef("java/lang/String", []);
    StringText();
    NestedGenericJoin();
    calc {
      SpecName(ClassRef("java/util/List", [inner]));
      "L" + "java/util/List" + ("<" + SpecNames([inner]) + ">") + ";";
      "L" + "java/util/List" + ("<" + "Ljava/lang/String;" + ">") + ";";
    }
  }

  /** The literal pieces of the nested example joined into its text. */
  lemma NestedGenericJoin()
    ensures "L" + "java/util/List" + ("<" + "Ljava/lang/String;" + ">") + ";" == "Ljava/util/List<Ljava/lang/String;>;"
  {
  }

  /** The example of a nested generic: `Ljava/util/List<Ljava/lang/String;>;`
      is `java/util/List` with the single argument `java/lang/String`, and the
      whole text is consumed. */
  lemma NestedGenericExample()
    ensures ParseTypeOrVar("Ljava/util/List<Ljava/lang/String;>;", 0)
         == Parsed(ClassRef("java/util/List", [ClassRef("java/lang/String", [])]), 36)
  {
    NestedGenericText();
    assert PlainName("java/lang/String") && PlainName("java/util/List");
    TypeRoundTrip("Ljava/util/List<Ljava/lang/String;>;", 0, ClassRef("java/util/List", [ClassRef("java/lang/String", [])]));
  }

  /** The example of a variable reference: `TT;` is the variable `T`, and the
      cursor stands at the end. */
  lemma VariableExample()
    ensures ParseTypeOrVar("TT;", 0) == Parsed(VarRef("T"), 3)
  {
    TypeRoundTrip("TT;", 0, VarRef("T"));
  }
}
